=== FILE: README.md ===
# Jac graph runtime, persistence plugin and run context in Dafny

This project models three parts of the Jaseci / jaclang runtime and proves properties about them.

- **The in-memory object graph and walker scheduler** (`jaclang/core/construct.py`, module `Construct`, properties in
  `ConstructLemmas`).
  - Node anchors keep ordered IN and OUT edge lists.
  - Edge anchors keep a source, a target and a declared direction; `attach` wires an edge between two nodes.
  - `edges_to_nodes` reads neighbours through one list.
  - A walker keeps a FIFO queue `next`, an `ignores` list and a one-way `disengaged` flag. Its `spawn_call` drains the queue
    and fires four hook tables per node, checking the flag after every entry.
  - Each imperative method is proved equal to a pure reference function: `Neighbours`, `VisitList`, `IgnoreList`, `Run`.
  - The lemmas are about those functions: membership, no deduplication, edges bypassing the ignore list, FIFO order, hook
    order, what a drained or stopped spawn leaves, and at most one call once disengaged.
- **The FastAPI service's persistence plugin** (`examples/plugins/jaclang_fastapi/jaclang_fastapi/plugins/common.py`, module
  `Persistence`, with `PersistenceLemmas` and `ServiceContext`).
  - Architypes live in an arena, `Graph`, which maps handles to architype values and handles to their `_jac_doc_`
    (document anchor plus pending-update list).
  - The document store is a map from ids to records. A session buffers the writes of its one open transaction. Which writes the
    store rejects is a parameter: write number n fails when n is in `failing`.
  - A save is a state machine per architype:
    - a new architype gets a document before its edges are saved, then is inserted once;
    - a node with pending updates is updated once;
    - a clean node writes nothing;
    - a persisted edge is always updated.
  - The proofs cover the following:
    - the records a save commits;
    - which architypes it can write;
    - the `translate_edges` round trip of the `edg` slots a save writes;
    - how `edges_to_nodes` loads lazy references and fails;
    - how `attach` marks both ends pending;
    - `JacContext`'s memory keyed by `str(id)`.
- **The run context** (`jaclang/core/context.py`, module `RunContext`).
  - `load` either merges a stored anchor onto the given one or falls back.
  - A new context resolves its super root, root and entry.
  - `get` creates at most one context.
  - The test counters decide when `addFailure` requests a stop and when `run_test` trips the breaker.

The datasource, the document store, the session and the context variable are modelled as plain state; nothing outside the
process is called.

## Model

In the Left out section, `common.py` stands for
`examples/plugins/jaclang_fastapi/jaclang_fastapi/plugins/common.py`.

| member | source | states |
|---|---|---|
| Construct.Node.ConnectNode | jaclang/core/construct.py:37-40 | as written: returns this node and wires the edge with the as-written `attach`, so an IN edge has its ends swapped (source `nd`, target this node) yet, like every other edge, it is appended to this node's OUT list and `nd`'s IN list; fields are unchanged |
| Construct.Node.EdgesToNodes | jaclang/core/construct.py:42-59 | for OUT the set targets of the OUT list, for IN the set sources of the IN list, each passing the type filter, in list order; ANY gives nothing; nothing is modified |
| Construct.Neighbours | jaclang/core/construct.py:42-59 | never more neighbours than edges |
| Construct.Edge.constructor | jaclang/core/construct.py:113-116 | a new edge has no source, no target and no direction |
| Construct.Edge.ApplyDir | jaclang/core/construct.py:118-121 | sets the direction and returns the same edge |
| Construct.Edge.Attach | jaclang/core/construct.py:123-135 | corrected attach: the ends are (src, trg), swapped for IN; the edge is appended once to its source's OUT list and once to its target's IN list; the other lists and all fields are unchanged |
| Construct.Edge.AttachAsWritten | jaclang/core/construct.py:123-135 | attach as written: the ends are swapped for IN, but the edge always goes to `src`'s OUT and `trg`'s IN list |
| Construct.Edge.SpawnCall | jaclang/core/construct.py:137-140 | an edge without a target spawns nothing and leaves the walker unchanged; otherwise the walker runs from the target exactly as `Run` says |
| Construct.Walker.constructor | jaclang/core/construct.py:147-151 | a new walker has empty path, queue and ignore list and is not disengaged |
| Construct.VisitList | jaclang/core/construct.py:164-173 | visiting only appends to the queue: the old queue is a prefix of the new one |
| Construct.IgnoreList | jaclang/core/construct.py:186-195 | ignoring only appends: the old ignore list is a prefix of the new one |
| Construct.Walker.VisitNode | jaclang/core/construct.py:153-173 | the queue is `VisitList` of the old queue; the result is whether it grew, or the error for an edge without a target |
| Construct.Walker.IgnoreNode | jaclang/core/construct.py:175-195 | the ignore list is `IgnoreList` of the old list; the result is whether it grew, or the error for an edge without a target |
| Construct.Walker.DisengageNow | jaclang/core/construct.py:197-199 | the walker is disengaged afterwards |
| Construct.ApplyActions | jaclang/core/construct.py:209-210 | a hook body only appends to the queue and the ignore list, never clears `disengaged`, and can only fail with the no-target error |
| Construct.Call | jaclang/core/construct.py:207-212 | a hook call is logged at the end of the call log and keeps the growth discipline (`Extends`); the only error its body raises is the one for an edge without a target |
| Construct.Tables | jaclang/core/construct.py:207-238 | a node visit runs exactly four hook tables |
| Construct.RunEmpty | jaclang/core/construct.py:205-239 | an empty queue ends the spawn as drained and clears `ignores` |
| Construct.Walker.Perform | jaclang/core/construct.py:209-210 | running one hook body through `visit`, `ignore` and `disengage` gives the walker fields `ApplyActions` gives |
| Construct.Walker.CallHook | jaclang/core/construct.py:207-212 | one hook call gives the walker fields and log `Call` gives |
| Construct.Walker.FireEntry | jaclang/core/construct.py:208-214 | one table entry: a stop agrees with `Run` from that entry; otherwise `Run` from the next entry gives the same final result |
| Construct.Walker.FireHooks | jaclang/core/construct.py:207-214 | one hook-table loop agrees with `Run` from the start of that table, and keeps the growth discipline |
| Construct.Walker.ProcessHere | jaclang/core/construct.py:207-238 | the four tables of one node agree with `Run` from the start of its visit |
| Construct.Walker.Step | jaclang/core/construct.py:205-238 | one loop iteration consumes script or shortens the queue, and agrees with `Run` |
| Construct.Walker.Drain | jaclang/core/construct.py:205-239 | the whole loop leaves exactly the fields and outcome of `Run` |
| Construct.Walker.SpawnCall | jaclang/core/construct.py:201-239 | `path` is reset and the queue set to `[nd]`, keeping `ignores` and `disengaged`; the final fields and outcome are those of `Run` |
| ConstructLemmas.NeighboursMember | jaclang/core/construct.py:42-59 | a node is a neighbour iff some edge of the list has it at the far end and it passes the filter |
| ConstructLemmas.NeighboursSnoc | jaclang/core/construct.py:47-52 | appending an edge appends its far end, when set and matching, to the neighbours |
| ConstructLemmas.AttachedNeighbours | jaclang/core/construct.py:131-134 | after wiring a to b, b is a's last OUT neighbour and a is b's last IN neighbour, when they pass the filter |
| ConstructLemmas.InAttachAsWritten | jaclang/core/construct.py:125-129 | on an IN edge between distinct a and b, the as-written attach makes each node its own neighbour |
| ConstructLemmas.InAttachCorrected | jaclang/core/construct.py:125-129 | on the same input, the corrected attach makes a and b each other's neighbours |
| ConstructLemmas.VisitConcat | jaclang/core/construct.py:164-173 | visiting a + b is visiting a, then b unless a failed |
| ConstructLemmas.VisitFailsIff | jaclang/core/construct.py:168-172 | `visit` raises iff some item is an edge without a target |
| ConstructLemmas.VisitAppendsEveryNode | jaclang/core/construct.py:164-167 | nodes not ignored are all appended in order, repeats included (no deduplication) |
| ConstructLemmas.VisitSkipsIgnored | jaclang/core/construct.py:165 | visiting only ignored nodes leaves the queue unchanged and succeeds |
| ConstructLemmas.IgnoreNodes | jaclang/core/construct.py:186-189 | ignoring nodes yields the old entries plus exactly the given nodes; ignoring them again changes nothing |
| ConstructLemmas.IgnoreNodesOnce | jaclang/core/construct.py:186-189 | each node is added at most once and a present node is never re-added |
| ConstructLemmas.EdgeItemBypassesIgnores | jaclang/core/construct.py:165-170 | an edge is never in `ignores`, so its ignored target is still queued, and is appended to `ignores` again |
| ConstructLemmas.RunIsFifo | jaclang/core/construct.py:204-206 | taken nodes followed by the queue only grow at the end: nodes are taken in the order queued |
| ConstructLemmas.RunEnd | jaclang/core/construct.py:205-239 | a drained run leaves queue and `ignores` empty; any other run keeps `ignores`; a set `disengaged` flag survives |
| ConstructLemmas.DisengagedAtMostOneCall | jaclang/core/construct.py:213-214 | a walker already disengaged makes at most one hook call |
| ConstructLemmas.DisengageEndsRun | jaclang/core/construct.py:197-239 | a walker not yet disengaged that ends a run disengaged did not drain the queue, made at least one call, and made its last call at the last node it took from the queue |
| ConstructLemmas.SpawnDisengaging | jaclang/core/construct.py:197-239 | for a freshly spawned walker that disengages: it does not drain, its last call is at the last node taken, every call took one script entry, and the last call's body is the first in the script to hold a `disengage` |
| ConstructLemmas.DisengagedBodyHasDisengage | jaclang/core/construct.py:197-199 | a hook body that leaves an engaged walker disengaged holds a `disengage` |
| ConstructLemmas.DisengageInBodyDisengages | jaclang/core/construct.py:197-199 | a hook body that holds a `disengage` and raises nothing leaves the walker disengaged |
| ConstructLemmas.DisengagingCallIsLast | jaclang/core/construct.py:213-238 | the call that disengages an engaged walker is the run's last call: each call of the run took one script entry, the last body holds a `disengage` and no earlier body of the run does, so no later entry of the same node and no later node is called |
| ConstructLemmas.DrainedRunCallable | jaclang/core/construct.py:208-236 | a run that drains found a function for every matching hook of every node it took and of the rest of the visit it started in |
| ConstructLemmas.NoFunctionAtLastNode | jaclang/core/construct.py:208-236 | a run that raises "No function" raises it for a matching hook of the last node taken, with that name and no function |
| ConstructLemmas.SpawnHooks | jaclang/core/construct.py:201-239 | the same two facts for a freshly spawned walker |
| ConstructLemmas.RunCalls | jaclang/core/construct.py:207-238 | the calls of a run are the rest of the current visit's calls then, node by node in the order taken, node entry, walker entry, walker exit, node exit; a stopped run makes a prefix |
| ConstructLemmas.Spawn | jaclang/core/construct.py:201-239 | a spawn takes `nd` first; its calls are those of the taken nodes (all of them when drained); drained leaves queue and `ignores` empty; disengaged at spawn means at most one call; disengaging during the spawn means it does not drain and no node is taken after the disengaging call; it stops right after the call whose body disengaged it; a drained spawn found a function for every matching hook of every node it took; a "No function" error names a matching hook of the last node taken that has no function |
| Persistence.JTypeOf | examples/plugins/jaclang_fastapi/jaclang_fastapi/plugins/common.py:31-34 | `JType(v)` succeeds iff v is 0, 1 or 2, and gives the member with that value |
| Persistence.EdgeDirOf | examples/plugins/jaclang_fastapi/jaclang_fastapi/plugins/common.py:46 | `EdgeDir(i)` succeeds iff i is 1, 2 or 3, and gives the member with that value |
| Persistence.DocAnchor.Json | examples/plugins/jaclang_fastapi/jaclang_fastapi/plugins/common.py:62-63 | the stored reference carries the id, the name and a type value that reads back as the kind |
| Persistence.FromJson | examples/plugins/jaclang_fastapi/jaclang_fastapi/plugins/common.py:47-49 | a stored reference reads back iff its type value is valid, and then writes back to itself |
| Persistence.JsonRoundTrip | examples/plugins/jaclang_fastapi/jaclang_fastapi/plugins/common.py:62-63 | reading back the stored reference of an anchor gives that anchor |
| Persistence.ClassRef | examples/plugins/jaclang_fastapi/jaclang_fastapi/plugins/common.py:65-66 | None iff the name is not registered for the kind, else the registered class |
| Persistence.TranslateKeys | examples/plugins/jaclang_fastapi/jaclang_fastapi/plugins/common.py:42-51 | a translation that succeeds has exactly the IN and OUT lists, and only slots 1 and 2 may be non-empty |
| Persistence.TranslateEdges | examples/plugins/jaclang_fastapi/jaclang_fastapi/plugins/common.py:42-51 | the nested loops compute `Translate`, including the first error |
| Persistence.TranslateSlots | examples/plugins/jaclang_fastapi/jaclang_fastapi/plugins/common.py:42-51 | translating the `edg` slots a save writes gives back the IN and OUT anchors, in order |
| Persistence.Apply | examples/plugins/jaclang_fastapi/jaclang_fastapi/plugins/common.py:125-129 | an insert adds its id; an update adds nothing; no other id's record changes |
| Persistence.Store.FindById | examples/plugins/jaclang_fastapi/jaclang_fastapi/plugins/common.py:75 | finds a record iff the id is stored, and then the stored record |
| Persistence.Session.Put | examples/plugins/jaclang_fastapi/jaclang_fastapi/plugins/common.py:114-117 | a write is accepted iff its number is not failing; only an accepted write is buffered |
| Persistence.Session.Commit | examples/plugins/jaclang_fastapi/jaclang_fastapi/plugins/common.py:135 | the buffered writes take effect together, in order |
| Persistence.Session.Abort | examples/plugins/jaclang_fastapi/jaclang_fastapi/plugins/common.py:137 | the buffered writes are dropped |
| Persistence.GrowsAssign | examples/plugins/jaclang_fastapi/jaclang_fastapi/plugins/common.py:105-108 | assigning a document (fresh id, nothing pending) or clearing pending updates keeps ids distinct and takes the node out of the pending set |
| Persistence.Graph.AssignDoc | examples/plugins/jaclang_fastapi/jaclang_fastapi/plugins/common.py:105-108 | a new architype gets its kind, class name and the next id; a pending node has its updates cleared; the node becomes clean |
| Persistence.Graph.SaveEdgeList | examples/plugins/jaclang_fastapi/jaclang_fastapi/plugins/common.py:110-112 | on success every entry is saved and the result is their references in order; an empty list writes nothing |
| Persistence.Graph.SaveEntry | examples/plugins/jaclang_fastapi/jaclang_fastapi/plugins/common.py:112 | saving one entry appends its reference and never makes a node pending |
| Persistence.Graph.SaveNodeEdges | examples/plugins/jaclang_fastapi/jaclang_fastapi/plugins/common.py:109-112 | on success the slots are the IN references in slot 1 and the OUT references in slot 2; a node without edges writes nothing |
| Persistence.Graph.SaveNodeIn | examples/plugins/jaclang_fastapi/jaclang_fastapi/plugins/common.py:104-129 | a clean node writes nothing; otherwise the node's write (an insert when new, an update otherwise) is the last write and the only one for its id; a new document has the node's kind (ROOT for a root, whose save at common.py:176-202 is the same), its class name and the next id; the document is returned |
| Persistence.Graph.SaveDirtyNode | examples/plugins/jaclang_fastapi/jaclang_fastapi/plugins/common.py:105-129 | the document is assigned before the edges are saved; on success exactly one write for the node, the last one, carries its edge slots and fields |
| Persistence.Graph.SaveEnd | examples/plugins/jaclang_fastapi/jaclang_fastapi/plugins/common.py:275-276 | saving an edge end succeeds only for a live end, and returns that node's document |
| Persistence.Graph.SaveEnds | examples/plugins/jaclang_fastapi/jaclang_fastapi/plugins/common.py:275-276 | on success both ends are live, saved, and their documents are returned in order |
| Persistence.Graph.SaveEdgeIn | examples/plugins/jaclang_fastapi/jaclang_fastapi/plugins/common.py:266-294 | a new edge gets an EDGE document first; on success its last write is the insert, or for a persisted edge always an update, with both end references and the direction |
| Persistence.Graph.Save | examples/plugins/jaclang_fastapi/jaclang_fastapi/plugins/common.py:103-141 | success commits exactly the session's writes, failure leaves the store unchanged; a clean node writes nothing; a saved node's or new edge's record is what its own write makes it; documents assigned by a failed save stay |
| Persistence.Graph.SaveAtomic | examples/plugins/jaclang_fastapi/jaclang_fastapi/plugins/common.py:130-139 | corrected save without a session: a failure also restores the documents, so architypes and store agree |
| Persistence.Graph.Update | examples/plugins/jaclang_fastapi/jaclang_fastapi/plugins/common.py:99-101 | appends to the pending list only when the node has a document, otherwise no change; a node becomes pending and pending nodes stay pending |
| Persistence.Graph.Attach | examples/plugins/jaclang_fastapi/jaclang_fastapi/plugins/common.py:311-317 | the edge is wired as `Wire` says; both ends become pending; no document's anchor changes |
| Persistence.Graph.UpdateEnds | examples/plugins/jaclang_fastapi/jaclang_fastapi/plugins/common.py:315-316 | both ends become pending; no other document changes and no anchor changes |
| Persistence.WireEffect | jaclang/core/construct.py:130-134 | wiring sets the edge's ends and appends it once to its source's OUT and its target's IN list; nothing else changes |
| Persistence.WireWired | examples/plugins/jaclang_fastapi/jaclang_fastapi/plugins/common.py:313 | after wiring, edge lists still hold only edges and edge ends are nodes |
| Persistence.Graph.EdgesToNodes | examples/plugins/jaclang_fastapi/jaclang_fastapi/plugins/common.py:147-166 | ANY raises for the missing key; otherwise the loop's first load failure, or the far ends of the `filter_func` choice of the kept edges |
| Persistence.EndRef | examples/plugins/jaclang_fastapi/jaclang_fastapi/plugins/common.py:248-260 | a missing end stays unset; a stored end becomes a lazy reference iff its type value is valid |
| Persistence.Connect | examples/plugins/jaclang_fastapi/jaclang_fastapi/plugins/common.py:71-76 | an unknown class or a missing record raises; a loaded edge has the registered class of its record and its stored ends |
| Persistence.Load | examples/plugins/jaclang_fastapi/jaclang_fastapi/plugins/common.py:154-156 | a live edge is read as it is; a lazy one is connected |
| Persistence.Fars | examples/plugins/jaclang_fastapi/jaclang_fastapi/plugins/common.py:163-166 | each chosen edge is replaced by its far end, in order |
| Persistence.CollectStops | examples/plugins/jaclang_fastapi/jaclang_fastapi/plugins/common.py:154-156 | the first entry that fails to load is the walk's error |
| Persistence.CollectFails | examples/plugins/jaclang_fastapi/jaclang_fastapi/plugins/common.py:154-156 | the walk fails iff some entry of the list cannot be loaded |
| Persistence.CollectKeeps | examples/plugins/jaclang_fastapi/jaclang_fastapi/plugins/common.py:158-161 | every kept edge has its far end set and passes the type filter; there are no more of them than entries |
| Persistence.NoSelectAllSet | examples/plugins/jaclang_fastapi/jaclang_fastapi/plugins/common.py:151-166 | without `filter_func`, every node returned is set |
| Persistence.AllLiveLoads | examples/plugins/jaclang_fastapi/jaclang_fastapi/plugins/common.py:154-156 | a list of live edges is walked without failure |
| PersistenceLemmas.RetryAfterFailedSave | examples/plugins/jaclang_fastapi/jaclang_fastapi/plugins/common.py:130-139 | as written: a first save that fails, then a retry that succeeds, leaves the node missing from the store |
| PersistenceLemmas.RetryAfterFailedSaveAtomic | examples/plugins/jaclang_fastapi/jaclang_fastapi/plugins/common.py:130-139 | corrected: the same two saves leave the node stored |
| PersistenceLemmas.RetryAfterFailedSaveOn | examples/plugins/jaclang_fastapi/jaclang_fastapi/plugins/common.py:130-139 | as written, on any graph: for any node with something pending, a first save that fails then a retry that succeeds leave the store exactly as before both |
| PersistenceLemmas.RetryAfterFailedSaveAtomicOn | examples/plugins/jaclang_fastapi/jaclang_fastapi/plugins/common.py:130-139 | corrected, on any graph: a new node without edges whose first save fails is in the store after a retry whose first write succeeds |
| ServiceContext.KeyString | examples/plugins/jaclang_fastapi/jaclang_fastapi/plugins/common.py:340 | the string of an `ObjectId` has 24 characters |
| ServiceContext.HexRoundTrip | examples/plugins/jaclang_fastapi/jaclang_fastapi/plugins/common.py:340 | reading back the hexadecimal string of an id gives the id |
| ServiceContext.OidKeysDistinct | examples/plugins/jaclang_fastapi/jaclang_fastapi/plugins/common.py:339-349 | two ids address the same entry iff they are the same id |
| ServiceContext.JacContext.Get | examples/plugins/jaclang_fastapi/jaclang_fastapi/plugins/common.py:342-343 | a hit gives the stored value under the key's string form; a miss gives the default |
| ServiceContext.JacContext.Set | examples/plugins/jaclang_fastapi/jaclang_fastapi/plugins/common.py:345-346 | afterwards the id is present and holds the object; no other key changes |
| ServiceContext.JacContext.Remove | examples/plugins/jaclang_fastapi/jaclang_fastapi/plugins/common.py:348-349 | afterwards the id is absent and `get` gives the default; removing an absent id changes nothing; no other key changes |
| RunContext.NewSuperRoot | jaclang/core/context.py:42-48 | a new anchor with id 0 and access level 1, whose new `Root` architype points back at it, stored under id 0 |
| RunContext.Load | jaclang/core/context.py:50-62 | a found anchor gets the stored id, architype and attributes and access level 1 and is returned; otherwise the given default, or a new super root, is returned and the anchor is untouched |
| RunContext.ExecutionContext.constructor | jaclang/core/context.py:27-40 | reports start empty; the super root is loaded at id 0 or generated; root falls back on the super root and entry on the root; all end with access level 1 |
| RunContext.ExecutionContext.Close | jaclang/core/context.py:64-66 | the datasource is closed |
| RunContext.ContextSlot.Get | jaclang/core/context.py:68-75 | a set context is returned unchanged, and the datasource and the given `root` and `entry` anchors are left untouched; otherwise a new one is created and set |
| RunContext.GetTwice | jaclang/core/context.py:73-75 | two calls return the same context |
| RunContext.JacTestResult.constructor | jaclang/core/context.py:81-91 | the count starts at the checker's `failcount`, with no failures and no stop |
| RunContext.JacTestResult.AddFailure | jaclang/core/context.py:93-98 | the failure is recorded and counted; a stop is requested once the count reaches the maximum, never without one; stop is requested iff some failure reached it |
| RunContext.BreaksStays | jaclang/core/context.py:148-150 | once tripped, the breaker rule stays tripped as the count grows |
| RunContext.JacTestCheck.RunTest | jaclang/core/context.py:138-150 | a successful run changes nothing; a failed one adds its failures and sets the breaker by the rule; with a non-zero limit and a failure, the breaker equals the result's stop request; a breaker tripped by the rule stays tripped through later runs under the same limit |

## Left out

- `NodeAnchor.gen_dot` (jaclang/core/construct.py:61-106) prints and writes a file; it is not modelled.
- Hook bodies are user code. Their effect on the walker is a script of visit, ignore and disengage calls, one entry per hook
  call; hooks do nothing once the script is used up. Graph changes made by hooks are not modelled.
- Architype equality: membership in `ignores` compares by identity. Generated architypes with value equality are not modelled.
- `ObjectAnchor.spawn_call` (jaclang/core/construct.py:23-25) only delegates to the walker's `spawn_call`, which is modelled.
- `jaclang/compiler/constant.py` is not part of this model. `EdgeDir` takes the values IN=1, OUT=2, ANY=3, which agree with
  the four `edg` slots a save writes.
- The document store is one map for all collections. The separate collection per class, `ObjectId()` generation (a counter
  here) and `asdict(self)` (a field map here) are abstracted.
- Persistence.Apply: an insert of an id already in the store replaces its record, where `insert_one` would raise a
  duplicate-key error. Ids come from the counter `nextId`, but the model does not tie the counter to the ids already stored.
- `connect` caching the loaded record in `obj`, and building an architype by calling its class with the stored fields, are
  not modelled. A loaded edge keeps its class and its two ends.
- The node and root document loaders (common.py:90-97, 220-229) are modelled only through `translate_edges`.
- Which writes the store rejects is a parameter. Other exceptions raised inside a save are the modelled error cases only:
  a missing or lazy edge end, and a rejected write.
- `logger.exception`, `async`/`await` and concurrent sessions are not modelled. Saves run one after another.
- Persistence.Graph.UpdateEnds: the exact pending lists of the two ends are not stated, only that both are pending.
  `Persistence.Graph.Update` states them exactly.
- Persistence.Graph.Save: for an already-persisted edge, the stored record after the update is not stated. It states only
  that the update is the save's last write.
- Persistence.Graph.SaveAtomic: the edge-specific clauses of `Save` are not repeated.
- Persistence.Graph.Attach: the persistence layer wires with the corrected orientation of `attach`; see Findings.
  `Construct.Node.ConnectNode` keeps the orientation as written, so through an IN edge it wires each end is its own neighbour.
- `JacContext`'s `request`, `user` and `root` fields are not modelled; only its memory is.
- `ShelfMemory` (jaclang/core/memory.py) is not part of this model. The datasource is a map from ids to stored anchors;
  `set`'s memory-only flag and `close`'s persistence are not modelled.
- RunContext.Load: `__dict__.update` copies every attribute. The model copies the id, the architype and the other attributes,
  and the access level is then set to 1.
- RunContext.ExecutionContext.constructor: when `entry` is the same object as `root`, which anchor becomes the entry is not
  stated.
- The context variable's per-task scoping is not modelled; there is one slot.
- `JacTextTestRunner`, the test suite, `reset`, `add_test` and `__getattr__` forwarding are not modelled, and neither is the
  failfast stop. The result of running the suite is a parameter, and `wasSuccessful` is read as "no failures and no errors".

## Findings

| source | as written | input that shows it | evidently intended | confidence | as-written member | corrected member |
|---|---|---|---|---|---|---|
| jaclang/core/construct.py:125-129 | with direction IN the ends are swapped, but the edge is appended to the new source's IN list and the new target's OUT list | an IN edge attached between distinct nodes a and b: b is its source and holds it as incoming, so each node is its own neighbour | the edge goes to its source's OUT list and its target's IN list, as in the other branch | medium, not executed | ConstructLemmas.InAttachAsWritten | ConstructLemmas.InAttachCorrected |
| examples/plugins/jaclang_fastapi/jaclang_fastapi/plugins/common.py:130-139 | a save without a session aborts the transaction on failure but keeps the `_jac_doc_` it assigned and the pending updates it cleared | a new node without edges whose insert is rejected, then saved again: the retry sees a clean document, writes nothing, succeeds, and the node is never stored | a failed save leaves the architype unsaved, so that a retry inserts it | medium, not executed | PersistenceLemmas.RetryAfterFailedSave | PersistenceLemmas.RetryAfterFailedSaveAtomic |

=== FILE: construct.dfy ===
/**
 * The in-memory object graph and the walker scheduler of the Jac runtime
 * (jaclang/core/construct.py).
 *
 * A node anchor keeps two ordered edge lists, IN and OUT; an edge anchor
 * keeps its source, target and declared direction; a walker anchor keeps a
 * FIFO queue `next`, an `ignores` list and a one-way `disengaged` flag, and
 * its spawn drains the queue, firing at every node the node's entry hooks,
 * the walker's entry hooks, the walker's exit hooks and the node's exit
 * hooks, in that order, checking the flag after every hook-table entry.
 *
 * Each imperative operation is proved equal to a pure reference function
 * (`Neighbours`, `VisitList`, `IgnoreList`, `Run`); the
 * properties of those functions are proved in module ConstructLemmas.
 */
module Construct {

  datatype Option<+T> = None | Some(value: T)

  datatype Result<+T, +E> = Ok(value: T) | Err(error: E)

  /** The name of a class, as `isinstance` sees it. */
  type TypeTag = string

  /** Edge direction; the values are the enum's integer values. */
  datatype EdgeDir = IN | OUT | ANY {
    function Value(): nat {
      match this
      case IN => 1
      case OUT => 2
      case ANY => 3
    }
  }

  /**
   * `not trigger or isinstance(x, trigger)`, where `types` are the classes x
   * is an instance of. A trigger names one class or a tuple (or union) of
   * classes; None and the empty tuple are falsy and so match everything.
   */
  predicate Fires(trigger: set<TypeTag>, types: set<TypeTag>) {
    trigger == {} || trigger * types != {}
  }

  /** A data spatial function: the hook's name, its trigger, and its callable once resolved. */
  datatype DSFunc = DSFunc(name: string, trigger: set<TypeTag>, func: Option<string>)

  /**
   * An architype class: its name, every class an instance of it belongs to
   * (itself and its bases), and its entry and exit hook tables.
   */
  datatype ArchClass = ArchClass(name: string, types: set<TypeTag>, entryFuncs: seq<DSFunc>, exitFuncs: seq<DSFunc>)

  /** The end of `e` that `edges_to_nodes` reads from direction `dir`. */
  function Far(e: Edge, dir: EdgeDir): Node?
    reads e
  {
    if dir == OUT then e.target else e.source
  }

  /**
   * Reference for `edges_to_nodes` over one edge list: the far ends that are
   * set and pass the type filter, in list order.
   */
  function Neighbours(es: seq<Edge>, dir: EdgeDir, filter: set<TypeTag>): (r: seq<Node>)
    reads set e | e in es
    ensures |r| <= |es|
  {
    if es == [] then []
    else
      var last := es[|es| - 1];
      var n := Far(last, dir);
      Neighbours(es[..|es| - 1], dir, filter) + (if n != null && Fires(filter, n.cls.types) then [n] else [])
  }

  class Node {
    const cls: ArchClass
    var fields: map<string, string>
    var inEdges: seq<Edge>
    var outEdges: seq<Edge>

    constructor (cls: ArchClass, fields: map<string, string>)
      ensures this.cls == cls && this.fields == fields
      ensures inEdges == [] && outEdges == []
    {
      this.cls := cls;
      this.fields := fields;
      inEdges := [];
      outEdges := [];
    }

    /**
     * Attaches `edg` between this node and `nd` with `attach` as construct.py
     * writes it; returns this node. An IN edge has its ends swapped, yet it
     * still lands in this node's OUT list and `nd`'s IN list.
     */
    method ConnectNode(nd: Node, edg: Edge) returns (r: Node)
      modifies edg, this, nd
      ensures r == this
      ensures edg.dir == old(edg.dir) && edg.fields == old(edg.fields)
      ensures if old(edg.dir) == Some(IN) then edg.source == nd && edg.target == this
              else edg.source == this && edg.target == nd
      ensures outEdges == old(outEdges) + [edg] && nd.inEdges == old(nd.inEdges) + [edg]
      ensures nd != this ==> inEdges == old(inEdges) && nd.outEdges == old(nd.outEdges)
      ensures fields == old(fields) && nd.fields == old(nd.fields)
    {
      var _ := edg.AttachAsWritten(this, nd);
      r := this;
    }

    /** The neighbour nodes through the `dir` edge list; ANY yields nothing. Nothing is modified. */
    method EdgesToNodes(dir: EdgeDir, filterType: set<TypeTag>) returns (r: seq<Node>)
      ensures dir == OUT ==> r == Neighbours(outEdges, OUT, filterType)
      ensures dir == IN ==> r == Neighbours(inEdges, IN, filterType)
      ensures dir == ANY ==> r == []
    {
      r := [];
      if dir == OUT {
        for i := 0 to |outEdges|
          invariant r == Neighbours(outEdges[..i], OUT, filterType)
        {
          assert outEdges[..i + 1][..i] == outEdges[..i];
          var t := outEdges[i].target;
          if t != null && Fires(filterType, t.cls.types) {
            r := r + [t];
          }
        }
        assert outEdges[..|outEdges|] == outEdges;
      } else if dir == IN {
        for i := 0 to |inEdges|
          invariant r == Neighbours(inEdges[..i], IN, filterType)
        {
          assert inEdges[..i + 1][..i] == inEdges[..i];
          var s := inEdges[i].source;
          if s != null && Fires(filterType, s.cls.types) {
            r := r + [s];
          }
        }
        assert inEdges[..|inEdges|] == inEdges;
      }
    }
  }

  class Edge {
    const cls: ArchClass
    var fields: map<string, string>
    var source: Node?
    var target: Node?
    var dir: Option<EdgeDir>

    constructor (cls: ArchClass, fields: map<string, string>)
      ensures this.cls == cls && this.fields == fields
      ensures source == null && target == null && dir == None
    {
      this.cls := cls;
      this.fields := fields;
      source := null;
      target := null;
      dir := None;
    }

    method ApplyDir(d: EdgeDir) returns (r: Edge)
      modifies this`dir
      ensures r == this && dir == Some(d)
    {
      dir := Some(d);
      r := this;
    }

    /**
     * Wires this edge between `src` and `trg`: with direction IN the edge
     * runs from trg to src, otherwise from src to trg, and it goes to the
     * end of its source's OUT list and of its target's IN list.
     */
    method Attach(src: Node, trg: Node) returns (r: Edge)
      modifies this, src, trg
      ensures r == this
      ensures dir == old(dir) && fields == old(fields)
      ensures if old(dir) == Some(IN) then source == trg && target == src
              else source == src && target == trg
      ensures old(dir) == Some(IN) ==>
                trg.outEdges == old(trg.outEdges) + [this] && src.inEdges == old(src.inEdges) + [this]
      ensures old(dir) != Some(IN) ==>
                src.outEdges == old(src.outEdges) + [this] && trg.inEdges == old(trg.inEdges) + [this]
      ensures src != trg && old(dir) == Some(IN) ==> trg.inEdges == old(trg.inEdges) && src.outEdges == old(src.outEdges)
      ensures src != trg && old(dir) != Some(IN) ==> src.inEdges == old(src.inEdges) && trg.outEdges == old(trg.outEdges)
      ensures src.fields == old(src.fields) && trg.fields == old(trg.fields)
    {
      if dir == Some(IN) {
        source := trg;
        target := src;
      } else {
        source := src;
        target := trg;
      }
      source.outEdges := source.outEdges + [this];
      target.inEdges := target.inEdges + [this];
      r := this;
    }

    /**
     * `attach` as construct.py writes it: with direction IN the fields are
     * swapped but the lists are still chosen by argument position, so the
     * edge lands in its source's IN list and its target's OUT list.
     */
    method AttachAsWritten(src: Node, trg: Node) returns (r: Edge)
      modifies this, src, trg
      ensures r == this
      ensures dir == old(dir) && fields == old(fields)
      ensures if old(dir) == Some(IN) then source == trg && target == src
              else source == src && target == trg
      ensures src.outEdges == old(src.outEdges) + [this]
      ensures trg.inEdges == old(trg.inEdges) + [this]
      ensures src != trg ==> src.inEdges == old(src.inEdges) && trg.outEdges == old(trg.outEdges)
      ensures src.fields == old(src.fields) && trg.fields == old(trg.fields)
    {
      if dir == Some(IN) {
        source := trg;
        target := src;
        source.inEdges := source.inEdges + [this];
        target.outEdges := target.outEdges + [this];
      } else {
        source := src;
        target := trg;
        source.outEdges := source.outEdges + [this];
        target.inEdges := target.inEdges + [this];
      }
      r := this;
    }

    /** Spawns `walk` on this edge's target; an edge without a target spawns nothing. */
    method SpawnCall(walk: Walker, script: Script, ghost G: set<Edge>) returns (r: Option<(Outcome, Log)>)
      requires ScriptWithin(script, G)
      modifies walk
      ensures target == null ==> r == None && unchanged(walk)
      ensures target != null ==>
                && r.Some? && walk.path == []
                && (walk.State(r.value.1), r.value.0) ==
                   Run(walk.cls, Walk([target], old(walk.ignores), old(walk.disengaged), Log(0, [], [])), Idle, script, G)
    {
      if target != null {
        var outcome, log := walk.SpawnCall(target, script, G);
        r := Some((outcome, log));
      } else {
        r := None;
      }
    }
  }

  // ---------------------------------------------------------------------
  // Walker scheduler: items, hook effects and the reference semantics.
  // ---------------------------------------------------------------------

  /** What a hook hands to `visit_node` or `ignore_node`: a node or an edge. */
  datatype Item = NodeItem(node: Node) | EdgeItem(edge: Edge)

  /**
   * The effect of one hook body on its walker, in program order. Hook bodies
   * are user code; the model sees them only through these calls.
   */
  datatype Action = Visit(items: seq<Item>) | Ignore(items: seq<Item>) | Disengage {
    function Items(): seq<Item> {
      if Disengage? then [] else items
    }
  }

  /** The effects of the successive hook calls of one spawn, one entry per call. */
  type Script = seq<seq<Action>>

  function EdgesOf(items: seq<Item>): set<Edge> {
    set i | i in items && i.EdgeItem? :: i.edge
  }

  ghost predicate ActionsWithin(acts: seq<Action>, G: set<Edge>) {
    forall j | 0 <= j < |acts| :: EdgesOf(acts[j].Items()) <= G
  }

  /** Every edge a script hands to the walker lies in G. */
  ghost predicate ScriptWithin(script: Script, G: set<Edge>) {
    forall k | 0 <= k < |script| :: ActionsWithin(script[k], G)
  }

  /** `i in self.ignores`: the list holds nodes only, so an edge is never in it. */
  predicate Ignored(item: Item, ignores: seq<Node>) {
    item.NodeItem? && item.node in ignores
  }

  /**
   * Reference for `visit_node`: the queue after appending, in order, every
   * item not in `ignores` (a node as itself, an edge as its target), and
   * false when an edge without a target stopped it part way.
   */
  function VisitList(q: seq<Node>, ignores: seq<Node>, items: seq<Item>): (r: (seq<Node>, bool))
    reads set i | i in items && i.EdgeItem? :: i.edge
    ensures q <= r.0
    decreases |items|
  {
    if items == [] then (q, true)
    else
      var it := items[0];
      if Ignored(it, ignores) then VisitList(q, ignores, items[1..])
      else if it.NodeItem? then VisitList(q + [it.node], ignores, items[1..])
      else if it.edge.target != null then VisitList(q + [it.edge.target], ignores, items[1..])
      else (q, false)
  }

  /**
   * Reference for `ignore_node`: like VisitList, but appending to the
   * ignore list itself, so an item is tested against what earlier items
   * of the same call added.
   */
  function IgnoreList(ignores: seq<Node>, items: seq<Item>): (r: (seq<Node>, bool))
    reads set i | i in items && i.EdgeItem? :: i.edge
    ensures ignores <= r.0
    decreases |items|
  {
    if items == [] then (ignores, true)
    else
      var it := items[0];
      if Ignored(it, ignores) then IgnoreList(ignores, items[1..])
      else if it.NodeItem? then IgnoreList(ignores + [it.node], items[1..])
      else if it.edge.target != null then IgnoreList(ignores + [it.edge.target], items[1..])
      else (ignores, false)
  }

  /** Which hook table a call came from; node hooks are called as (node, walker), walker hooks as (walker, node). */
  datatype Phase = NodeEntry | WalkerEntry | WalkerExit | NodeExit

  datatype HookCall = HookCall(phase: Phase, name: string, here: Node)

  /** The two ValueErrors of the scheduler. */
  datatype Failure = NoFunction(name: string) | EdgeHasNoTarget

  datatype Outcome = Drained | Disengaged | Failed(failure: Failure)

  datatype Status = Continue | Stop(outcome: Outcome)

  /**
   * What the model records beside the walker's fields during one spawn:
   * how many script entries were consumed, the hook calls made and the
   * nodes taken from the queue, in order.
   */
  datatype Log = Log(used: nat, calls: seq<HookCall>, popped: seq<Node>)

  /** The walker's scheduling fields together with the log. */
  datatype Walk = Walk(next: seq<Node>, ignores: seq<Node>, disengaged: bool, log: Log)

  /**
   * What every hook call of a spawn keeps: the queue and the ignore list
   * only grow at their tails (and the queue only while a script entry is
   * consumed), no node is taken from the queue, and `disengaged` is never
   * reset.
   */
  ghost predicate Extends(s: Walk, t: Walk) {
    && s.log.used <= t.log.used
    && (t.log.used == s.log.used ==> t.next == s.next)
    && t.log.popped == s.log.popped
    && s.next <= t.next
    && s.ignores <= t.ignores
    && (s.disengaged ==> t.disengaged)
  }

  lemma ExtendsTrans(a: Walk, b: Walk, c: Walk)
    requires Extends(a, b) && Extends(b, c)
    ensures Extends(a, c)
  {
  }

  /** One action of a hook body. */
  function Act(s: Walk, a: Action): (r: (Walk, bool))
    reads EdgesOf(a.Items())
  {
    match a
    case Visit(items) =>
      var (q, ok) := VisitList(s.next, s.ignores, items);
      (s.(next := q), ok)
    case Ignore(items) =>
      var (ig, ok) := IgnoreList(s.ignores, items);
      (s.(ignores := ig), ok)
    case Disengage =>
      (s.(disengaged := true), true)
  }

  /** A hook body: its actions in order, cut short by the first ValueError. */
  function ApplyActions(s: Walk, acts: seq<Action>, G: set<Edge>): (r: (Walk, Option<Failure>))
    requires ActionsWithin(acts, G)
    reads G
    ensures r.0.log.used == s.log.used && r.0.log.calls == s.log.calls && r.0.log.popped == s.log.popped
    ensures s.next <= r.0.next && s.ignores <= r.0.ignores
    ensures s.disengaged ==> r.0.disengaged
    ensures r.1.Some? ==> r.1 == Some(EdgeHasNoTarget)
    decreases |acts|
  {
    if acts == [] then (s, None)
    else
      assert EdgesOf(acts[0].Items()) <= G;
      var (s1, ok) := Act(s, acts[0]);
      if !ok then (s1, Some(EdgeHasNoTarget))
      else ApplyActions(s1, acts[1..], G)
  }

  /**
   * One hook call: recorded in the log, then the next script entry (none
   * once the script is used up) is applied.
   */
  function Call(s: Walk, call: HookCall, script: Script, G: set<Edge>): (r: (Walk, Option<Failure>))
    requires s.log.used <= |script| && ScriptWithin(script, G)
    reads G
    ensures Extends(s, r.0) && r.0.log.used <= |script|
    ensures r.0.log.calls == s.log.calls + [call]
    ensures r.1.Some? ==> r.1 == Some(EdgeHasNoTarget)
  {
    var s0 := s.(log := s.log.(calls := s.log.calls + [call]));
    if s.log.used < |script| then
      ApplyActions(s0.(log := s0.log.(used := s.log.used + 1)), script[s.log.used], G)
    else (s0, None)
  }

  /** One hook table of a node visit: its entries, the classes its triggers are tested against, and its phase. */
  datatype Table = Table(hooks: seq<DSFunc>, types: set<TypeTag>, phase: Phase)

  /**
   * The four hook tables of a visit to `nd` by a walker of class `w`, in
   * the order `spawn_call` runs them: the node's entry hooks (triggers
   * tested against the walker), the walker's entry and exit hooks
   * (triggers tested against the node), the node's exit hooks.
   */
  function Tables(w: ArchClass, nd: Node): (r: seq<Table>)
    ensures |r| == 4
  {
    [Table(nd.cls.entryFuncs, w.types, NodeEntry), Table(w.entryFuncs, nd.cls.types, WalkerEntry),
     Table(w.exitFuncs, nd.cls.types, WalkerExit), Table(nd.cls.exitFuncs, w.types, NodeExit)]
  }

  /** Where the spawn loop is: between two nodes, or at entry k of table j of the visit to nd. */
  datatype Cursor = Idle | At(nd: Node, j: nat, k: nat)

  predicate ValidCursor(w: ArchClass, c: Cursor) {
    c.At? ==> c.j < 4 && c.k <= |Tables(w, c.nd)[c.j].hooks|
  }

  /** Where the spawn loop goes once table j of the visit to nd is done. */
  function After(nd: Node, j: nat): Cursor {
    if j >= 3 then Idle else At(nd, j + 1, 0)
  }

  /** Termination measures of Run. */
  function QueueRank(s: Walk, c: Cursor): nat {
    5 * |s.next| + (if c.At? && c.j < 4 then 4 - c.j else 0)
  }

  function EntriesLeft(w: ArchClass, c: Cursor): nat
    requires ValidCursor(w, c)
  {
    if c.At? then |Tables(w, c.nd)[c.j].hooks| - c.k else 0
  }

  /**
   * Reference for `spawn_call` once the queue is set up, one step at a
   * time. Between nodes: an empty queue ends the spawn and clears
   * `ignores`; otherwise the head of the queue is taken and its first
   * table starts. At a table entry: a matching entry without a callable
   * fails, a matching entry is called, and after every entry, matching or
   * not, a set `disengaged` flag stops the spawn.
   */
  function Run(w: ArchClass, s: Walk, c: Cursor, script: Script, G: set<Edge>): (r: (Walk, Outcome))
    requires s.log.used <= |script| && ScriptWithin(script, G) && ValidCursor(w, c)
    reads G
    decreases |script| - s.log.used, QueueRank(s, c), EntriesLeft(w, c)
  {
    match c
    case Idle =>
      if s.next == [] then (s.(ignores := []), Drained)
      else Run(w, s.(next := s.next[1..], log := s.log.(popped := s.log.popped + [s.next[0]])), At(s.next[0], 0, 0), script, G)
    case At(nd, j, k) =>
      var t := Tables(w, nd)[j];
      if k == |t.hooks| then Run(w, s, After(nd, j), script, G)
      else
        var h := t.hooks[k];
        if Fires(h.trigger, t.types) && h.func.None? then (s, Failed(NoFunction(h.name)))
        else
          var (s1, err) := if Fires(h.trigger, t.types) then Call(s, HookCall(t.phase, h.name, nd), script, G) else (s, None);
          if err.Some? then (s1, Failed(err.value))
          else if s1.disengaged then (s1, Disengaged)
          else Run(w, s1, At(nd, j, k + 1), script, G)
  }

  /** Run on an empty queue between nodes: the spawn is over and the ignore list is cleared. */
  lemma RunEmpty(w: ArchClass, s: Walk, script: Script, G: set<Edge>)
    requires s.log.used <= |script| && ScriptWithin(script, G) && s.next == []
    ensures Run(w, s, Idle, script, G) == (s.(ignores := []), Drained)
  {
  }

  class Walker {
    const cls: ArchClass
    var path: seq<Node>
    var next: seq<Node>
    var ignores: seq<Node>
    var disengaged: bool

    constructor (cls: ArchClass)
      ensures this.cls == cls && path == [] && next == [] && ignores == [] && !disengaged
    {
      this.cls := cls;
      path := [];
      next := [];
      ignores := [];
      disengaged := false;
    }

    function State(log: Log): Walk
      reads this
    {
      Walk(next, ignores, disengaged, log)
    }

    /**
     * Appends every item not in `ignores` to the tail of the queue (an edge
     * as its target); an edge without a target raises. Returns whether the
     * queue grew.
     */
    method VisitNode(items: seq<Item>) returns (r: Result<bool, Failure>)
      modifies this`next
      ensures next == VisitList(old(next), ignores, items).0
      ensures r == if VisitList(old(next), ignores, items).1 then Ok(|next| > |old(next)|) else Err(EdgeHasNoTarget)
    {
      var before := |next|;
      var i := 0;
      while i < |items|
        invariant 0 <= i <= |items|
        invariant VisitList(next, ignores, items[i..]) == VisitList(old(next), ignores, items)
      {
        var it := items[i];
        assert items[i..][1..] == items[i + 1..];
        if !Ignored(it, ignores) {
          match it
          case NodeItem(n) =>
            assert VisitList(next, ignores, items[i..]) == VisitList(next + [n], ignores, items[i + 1..]);
            next := next + [n];
          case EdgeItem(e) =>
            if e.target != null {
              assert VisitList(next, ignores, items[i..]) == VisitList(next + [e.target], ignores, items[i + 1..]);
              next := next + [e.target];
            } else {
              return Err(EdgeHasNoTarget);
            }
        } else {
          assert VisitList(next, ignores, items[i..]) == VisitList(next, ignores, items[i + 1..]);
        }
        i := i + 1;
      }
      return Ok(|next| > before);
    }

    /**
     * Adds every item not already in `ignores` to it (an edge as its
     * target); an edge without a target raises. Returns whether the list grew.
     */
    method IgnoreNode(items: seq<Item>) returns (r: Result<bool, Failure>)
      modifies this`ignores
      ensures ignores == IgnoreList(old(ignores), items).0
      ensures r == if IgnoreList(old(ignores), items).1 then Ok(|ignores| > |old(ignores)|) else Err(EdgeHasNoTarget)
    {
      var before := |ignores|;
      var i := 0;
      while i < |items|
        invariant 0 <= i <= |items|
        invariant IgnoreList(ignores, items[i..]) == IgnoreList(old(ignores), items)
      {
        var it := items[i];
        assert items[i..][1..] == items[i + 1..];
        if !Ignored(it, ignores) {
          match it
          case NodeItem(n) =>
            assert IgnoreList(ignores, items[i..]) == IgnoreList(ignores + [n], items[i + 1..]);
            ignores := ignores + [n];
          case EdgeItem(e) =>
            if e.target != null {
              assert IgnoreList(ignores, items[i..]) == IgnoreList(ignores + [e.target], items[i + 1..]);
              ignores := ignores + [e.target];
            } else {
              return Err(EdgeHasNoTarget);
            }
        } else {
          assert IgnoreList(ignores, items[i..]) == IgnoreList(ignores, items[i + 1..]);
        }
        i := i + 1;
      }
      return Ok(|ignores| > before);
    }

    method DisengageNow()
      modifies this`disengaged
      ensures disengaged
    {
      disengaged := true;
    }

    /** Runs one hook body: its actions through VisitNode, IgnoreNode and DisengageNow. */
    method Perform(acts: seq<Action>, ghost G: set<Edge>, log0: Log) returns (err: Option<Failure>, log: Log)
      requires ActionsWithin(acts, G)
      modifies this`next, this`ignores, this`disengaged
      ensures (State(log), err) == ApplyActions(Walk(old(next), old(ignores), old(disengaged), log0), acts, G)
    {
      log := log0;
      for j := 0 to |acts|
        invariant ApplyActions(State(log), acts[j..], G) == ApplyActions(Walk(old(next), old(ignores), old(disengaged), log0), acts, G)
      {
        assert acts[j..][1..] == acts[j + 1..];
        assert EdgesOf(acts[j].Items()) <= G;
        match acts[j]
        case Visit(items) =>
          var r := VisitNode(items);
          if r.Err? {
            return Some(EdgeHasNoTarget), log;
          }
        case Ignore(items) =>
          var r := IgnoreNode(items);
          if r.Err? {
            return Some(EdgeHasNoTarget), log;
          }
        case Disengage =>
          DisengageNow();
      }
      err := None;
    }

    /** Calls one hook, whose effect is the next entry of the script. */
    method CallHook(call: HookCall, script: Script, ghost G: set<Edge>, log0: Log) returns (err: Option<Failure>, log: Log)
      requires log0.used <= |script| && ScriptWithin(script, G)
      modifies this`next, this`ignores, this`disengaged
      ensures (State(log), err) == Call(Walk(old(next), old(ignores), old(disengaged), log0), call, script, G)
    {
      log := log0.(calls := log0.calls + [call]);
      err := None;
      if log0.used < |script| {
        log := log.(used := log0.used + 1);
        err, log := Perform(script[log0.used], G, log);
      }
    }

    /**
     * One of the four hook-table loops of `spawn_call`: table j of the visit
     * to `here`.
     */
    method FireHooks(ghost j: nat, hooks: seq<DSFunc>, types: set<TypeTag>, phase: Phase, here: Node,
                     script: Script, ghost G: set<Edge>, log0: Log) returns (st: Status, log: Log)
      requires j < 4 && Tables(cls, here)[j] == Table(hooks, types, phase)
      requires log0.used <= |script| && ScriptWithin(script, G)
      modifies this`next, this`ignores, this`disengaged
      ensures log.used <= |script| && Extends(Walk(old(next), old(ignores), old(disengaged), log0), State(log))
      ensures st.Stop? ==>
                (State(log), st.outcome) == Run(cls, Walk(old(next), old(ignores), old(disengaged), log0), At(here, j, 0), script, G)
      ensures st.Continue? ==>
                Run(cls, State(log), After(here, j), script, G)
                == Run(cls, Walk(old(next), old(ignores), old(disengaged), log0), At(here, j, 0), script, G)
    {
      log := log0;
      ghost var init := State(log);
      ghost var goal := Run(cls, init, At(here, j, 0), script, G);
      var k := 0;
      while k < |hooks|
        invariant k <= |hooks| && log.used <= |script| && Extends(init, State(log))
        invariant Run(cls, State(log), At(here, j, k), script, G) == goal
        invariant goal == Run(cls, Walk(old(next), old(ignores), old(disengaged), log0), At(here, j, 0), script, G)
      {
        ghost var before := State(log);
        var stop;
        stop, log := FireEntry(j, k, hooks[k], types, phase, here, script, G, log);
        ExtendsTrans(init, before, State(log));
        if stop.Some? {
          return Stop(stop.value), log;
        }
        k := k + 1;
      }
      return Continue, log;
    }

    /**
     * One entry of a hook table: call it if its trigger matches (failing
     * when it names no function), then stop if the call failed or the
     * walker is now disengaged.
     */
    method FireEntry(ghost j: nat, ghost k: nat, h: DSFunc, types: set<TypeTag>, phase: Phase, here: Node,
                     script: Script, ghost G: set<Edge>, log0: Log) returns (stop: Option<Outcome>, log: Log)
      requires j < 4 && k < |Tables(cls, here)[j].hooks|
      requires Tables(cls, here)[j].hooks[k] == h && Tables(cls, here)[j].types == types && Tables(cls, here)[j].phase == phase
      requires log0.used <= |script| && ScriptWithin(script, G)
      modifies this`next, this`ignores, this`disengaged
      ensures log.used <= |script| && Extends(Walk(old(next), old(ignores), old(disengaged), log0), State(log))
      ensures stop.Some? ==>
                (State(log), stop.value) == Run(cls, Walk(old(next), old(ignores), old(disengaged), log0), At(here, j, k), script, G)
      ensures stop.None? ==>
                Run(cls, State(log), At(here, j, k + 1), script, G)
                == Run(cls, Walk(old(next), old(ignores), old(disengaged), log0), At(here, j, k), script, G)
    {
      log := log0;
      if Fires(h.trigger, types) {
        if h.func.None? {
          return Some(Failed(NoFunction(h.name))), log;
        }
        var err;
        err, log := CallHook(HookCall(phase, h.name, here), script, G, log);
        if err.Some? {
          return Some(Failed(err.value)), log;
        }
      }
      if disengaged {
        return Some(Disengaged), log;
      }
      return None, log;
    }

    /** The body of the spawn loop for the node just taken from the queue: its four hook tables. */
    method ProcessHere(here: Node, script: Script, ghost G: set<Edge>, log0: Log) returns (st: Status, log: Log)
      requires log0.used <= |script| && ScriptWithin(script, G)
      modifies this`next, this`ignores, this`disengaged
      ensures log.used <= |script| && Extends(Walk(old(next), old(ignores), old(disengaged), log0), State(log))
      ensures st.Stop? ==>
                (State(log), st.outcome) == Run(cls, Walk(old(next), old(ignores), old(disengaged), log0), At(here, 0, 0), script, G)
      ensures st.Continue? ==>
                Run(cls, State(log), Idle, script, G)
                == Run(cls, Walk(old(next), old(ignores), old(disengaged), log0), At(here, 0, 0), script, G)
    {
      ghost var s0 := State(log0);
      st, log := FireHooks(0, here.cls.entryFuncs, cls.types, NodeEntry, here, script, G, log0);
      if st.Stop? {
        return;
      }
      ghost var s1 := State(log);
      st, log := FireHooks(1, cls.entryFuncs, here.cls.types, WalkerEntry, here, script, G, log);
      ExtendsTrans(s0, s1, State(log));
      if st.Stop? {
        return;
      }
      ghost var s2 := State(log);
      st, log := FireHooks(2, cls.exitFuncs, here.cls.types, WalkerExit, here, script, G, log);
      ExtendsTrans(s0, s2, State(log));
      if st.Stop? {
        return;
      }
      ghost var s3 := State(log);
      st, log := FireHooks(3, here.cls.exitFuncs, cls.types, NodeExit, here, script, G, log);
      ExtendsTrans(s0, s3, State(log));
    }

    /** One iteration of the spawn loop: take the head of the queue and process it. */
    method Step(script: Script, ghost G: set<Edge>, log0: Log) returns (st: Status, log: Log)
      requires next != [] && log0.used <= |script| && ScriptWithin(script, G)
      modifies this`next, this`ignores, this`disengaged
      ensures log.used <= |script|
      ensures log0.used < log.used || (log0.used == log.used && |next| < |old(next)|)
      ensures st.Stop? ==> (State(log), st.outcome) == Run(cls, Walk(old(next), old(ignores), old(disengaged), log0), Idle, script, G)
      ensures st.Continue? ==>
                Run(cls, State(log), Idle, script, G) == Run(cls, Walk(old(next), old(ignores), old(disengaged), log0), Idle, script, G)
    {
      var here := next[0];
      next := next[1..];
      log := log0.(popped := log0.popped + [here]);
      st, log := ProcessHere(here, script, G, log);
    }

    /** The spawn loop: process the head of the queue until it is empty or a hook table stops the spawn. */
    method Drain(script: Script, ghost G: set<Edge>, log0: Log) returns (outcome: Outcome, log: Log)
      requires log0.used <= |script| && ScriptWithin(script, G)
      modifies this`next, this`ignores, this`disengaged
      ensures (State(log), outcome) == Run(cls, Walk(old(next), old(ignores), old(disengaged), log0), Idle, script, G)
    {
      log := log0;
      ghost var goal := Run(cls, State(log), Idle, script, G);
      while next != []
        invariant log.used <= |script|
        invariant Run(cls, State(log), Idle, script, G) == goal
        invariant goal == Run(cls, Walk(old(next), old(ignores), old(disengaged), log0), Idle, script, G)
        decreases |script| - log.used, |next|
      {
        var st;
        st, log := Step(script, G, log);
        if st.Stop? {
          return st.outcome, log;
        }
      }
      RunEmpty(cls, State(log), script, G);
      ignores := [];
      outcome := Drained;
    }

    /**
     * Spawns this walker on `nd`: `path` and the queue are reset, `ignores`
     * and `disengaged` are not. The final fields and the log are those of Run.
     */
    method SpawnCall(nd: Node, script: Script, ghost G: set<Edge>) returns (outcome: Outcome, log: Log)
      requires ScriptWithin(script, G)
      modifies this
      ensures path == []
      ensures (State(log), outcome) == Run(cls, Walk([nd], old(ignores), old(disengaged), Log(0, [], [])), Idle, script, G)
    {
      path := [];
      next := [nd];
      outcome, log := Drain(script, G, Log(0, [], []));
    }
  }
}

=== FILE: construct_props.dfy ===
/**
 * Properties of the graph and walker model of module Construct: what
 * `edges_to_nodes` returns, how `visit` and `ignore` treat nodes and
 * edges, and what a whole spawn guarantees about queue order, hook order,
 * the ignore list and disengagement.
 */
module ConstructLemmas {
  import opened Construct

  // ---------------------------------------------------------------------
  // Neighbours and attach
  // ---------------------------------------------------------------------

  /** A node is a neighbour exactly when some edge of the list has it at the far end and it passes the filter. */
  lemma {:induction false} NeighboursMember(es: seq<Edge>, dir: EdgeDir, filter: set<TypeTag>, n: Node)
    ensures n in Neighbours(es, dir, filter) <==>
            (exists i | 0 <= i < |es| :: Far(es[i], dir) == n) && Fires(filter, n.cls.types)
    decreases |es|
  {
    if es != [] {
      var init := es[..|es| - 1];
      NeighboursMember(init, dir, filter, n);
      if n in Neighbours(es, dir, filter) && n !in Neighbours(init, dir, filter) {
        assert Far(es[|es| - 1], dir) == n;
      }
      if exists i | 0 <= i < |es| :: Far(es[i], dir) == n {
        var i :| 0 <= i < |es| && Far(es[i], dir) == n;
        if i < |es| - 1 {
          assert Far(init[i], dir) == n;
        }
      }
      if exists i | 0 <= i < |init| :: Far(init[i], dir) == n {
        var i :| 0 <= i < |init| && Far(init[i], dir) == n;
        assert Far(es[i], dir) == n;
      }
    }
  }

  /** Appending an edge appends its far end, if set and of a matching type, to the neighbours. */
  lemma NeighboursSnoc(es: seq<Edge>, e: Edge, dir: EdgeDir, filter: set<TypeTag>)
    ensures Neighbours(es + [e], dir, filter) ==
            Neighbours(es, dir, filter) + (if Far(e, dir) != null && Fires(filter, Far(e, dir).cls.types) then [Far(e, dir)] else [])
  {
    assert (es + [e])[..|es|] == es;
  }

  /**
   * Once an edge is wired from `a` to `b` (as Edge.Attach does), `b` is
   * the last OUT neighbour of `a` and `a` the last IN neighbour of `b`,
   * whenever they pass the filter.
   */
  lemma AttachedNeighbours(aOut: seq<Edge>, bIn: seq<Edge>, e: Edge, a: Node, b: Node, filter: set<TypeTag>)
    requires e.source == a && e.target == b
    ensures Neighbours(aOut + [e], OUT, filter) == Neighbours(aOut, OUT, filter) + (if Fires(filter, b.cls.types) then [b] else [])
    ensures Neighbours(bIn + [e], IN, filter) == Neighbours(bIn, IN, filter) + (if Fires(filter, a.cls.types) then [a] else [])
  {
    NeighboursSnoc(aOut, e, OUT, filter);
    NeighboursSnoc(bIn, e, IN, filter);
  }

  /**
   * `attach` as written, on an IN edge between two distinct nodes: the
   * edge's source holds it as incoming and its target as outgoing, so each
   * node is reported as its own neighbour.
   */
  method InAttachAsWritten() returns (a: Node, b: Node, e: Edge)
    ensures a != b && e.dir == Some(IN) && e.source == b && e.target == a
    ensures e in b.inEdges && e !in b.outEdges && e in a.outEdges && e !in a.inEdges
    ensures Neighbours(b.inEdges, IN, {}) == [b] && Neighbours(a.outEdges, OUT, {}) == [a]
  {
    var c := ArchClass("N", {"N"}, [], []);
    a := new Node(c, map[]);
    b := new Node(c, map[]);
    e := new Edge(ArchClass("E", {"E"}, [], []), map[]);
    var _ := e.ApplyDir(IN);
    var _ := e.AttachAsWritten(a, b);
    assert [e][..0] == [];
  }

  /** The corrected attach on the same input: the edge runs from b to a and each sees the other. */
  method InAttachCorrected() returns (a: Node, b: Node, e: Edge)
    ensures a != b && e.dir == Some(IN) && e.source == b && e.target == a
    ensures e in b.outEdges && e !in b.inEdges && e in a.inEdges && e !in a.outEdges
    ensures Neighbours(b.outEdges, OUT, {}) == [a] && Neighbours(a.inEdges, IN, {}) == [b]
  {
    var c := ArchClass("N", {"N"}, [], []);
    a := new Node(c, map[]);
    b := new Node(c, map[]);
    e := new Edge(ArchClass("E", {"E"}, [], []), map[]);
    var _ := e.ApplyDir(IN);
    var _ := e.Attach(a, b);
    assert [e][..0] == [];
  }

  // ---------------------------------------------------------------------
  // visit and ignore
  // ---------------------------------------------------------------------

  function NodeItems(ns: seq<Node>): (r: seq<Item>)
    ensures |r| == |ns| && forall i | 0 <= i < |ns| :: r[i] == NodeItem(ns[i])
  {
    if ns == [] then [] else [NodeItem(ns[0])] + NodeItems(ns[1..])
  }

  /** Visiting a concatenation is visiting its two parts in turn, unless the first part fails. */
  lemma {:induction false} VisitConcat(q: seq<Node>, ig: seq<Node>, a: seq<Item>, b: seq<Item>)
    ensures VisitList(q, ig, a + b) ==
            (var (q1, ok) := VisitList(q, ig, a); if ok then VisitList(q1, ig, b) else (q1, false))
    decreases |a|
  {
    if a != [] {
      assert (a + b)[1..] == a[1..] + b;
      var it := a[0];
      if Ignored(it, ig) {
        VisitConcat(q, ig, a[1..], b);
      } else if it.NodeItem? {
        VisitConcat(q + [it.node], ig, a[1..], b);
      } else if it.edge.target != null {
        VisitConcat(q + [it.edge.target], ig, a[1..], b);
      }
    } else {
      assert a + b == b;
    }
  }

  /** `visit` raises exactly when one of the items is an edge without a target. */
  lemma {:induction false} VisitFailsIff(q: seq<Node>, ig: seq<Node>, items: seq<Item>)
    ensures !VisitList(q, ig, items).1 <==>
            exists i | 0 <= i < |items| :: items[i].EdgeItem? && items[i].edge.target == null
    decreases |items|
  {
    if items != [] {
      var it := items[0];
      if Ignored(it, ig) {
        VisitFailsIff(q, ig, items[1..]);
      } else if it.NodeItem? {
        VisitFailsIff(q + [it.node], ig, items[1..]);
      } else if it.edge.target != null {
        VisitFailsIff(q + [it.edge.target], ig, items[1..]);
      }
      if exists i | 0 <= i < |items[1..]| :: items[1..][i].EdgeItem? && items[1..][i].edge.target == null {
        var i :| 0 <= i < |items[1..]| && items[1..][i].EdgeItem? && items[1..][i].edge.target == null;
        assert items[i + 1] == items[1..][i];
      }
      if exists i | 0 <= i < |items| :: items[i].EdgeItem? && items[i].edge.target == null {
        var i :| 0 <= i < |items| && items[i].EdgeItem? && items[i].edge.target == null;
        if i > 0 {
          assert items[1..][i - 1] == items[i];
        }
      }
    }
  }

  /**
   * No deduplication: nodes not in the ignore list are all appended, in
   * order, however often they repeat or are already queued.
   */
  lemma {:induction false} VisitAppendsEveryNode(q: seq<Node>, ig: seq<Node>, ns: seq<Node>)
    requires forall i | 0 <= i < |ns| :: ns[i] !in ig
    ensures VisitList(q, ig, NodeItems(ns)) == (q + ns, true)
    decreases |ns|
  {
    if ns == [] {
      assert q + ns == q;
    } else {
      var items := NodeItems(ns);
      assert items[0] == NodeItem(ns[0]) && items[1..] == NodeItems(ns[1..]);
      assert !Ignored(items[0], ig);
      assert VisitList(q, ig, items) == VisitList(q + [ns[0]], ig, NodeItems(ns[1..]));
      assert forall i | 0 <= i < |ns[1..]| :: ns[1..][i] !in ig by {
        forall i | 0 <= i < |ns[1..]| ensures ns[1..][i] !in ig {
          assert ns[1..][i] == ns[i + 1];
        }
      }
      VisitAppendsEveryNode(q + [ns[0]], ig, ns[1..]);
      AppendAssoc(q, [ns[0]], ns[1..]);
      assert [ns[0]] + ns[1..] == ns;
    }
  }

  lemma AppendAssoc<T>(a: seq<T>, b: seq<T>, c: seq<T>)
    ensures a + b + c == a + (b + c)
  {
  }

  /** Visiting only ignored nodes changes nothing and reports that nothing was queued. */
  lemma {:induction false} VisitSkipsIgnored(q: seq<Node>, ig: seq<Node>, ns: seq<Node>)
    requires forall i | 0 <= i < |ns| :: ns[i] in ig
    ensures VisitList(q, ig, NodeItems(ns)) == (q, true)
    decreases |ns|
  {
    if ns != [] {
      assert NodeItems(ns)[1..] == NodeItems(ns[1..]);
      VisitSkipsIgnored(q, ig, ns[1..]);
    }
  }

  /**
   * Ignoring nodes leaves exactly the old entries plus the given nodes in
   * the list, and ignoring them again changes nothing.
   */
  lemma {:induction false} IgnoreNodes(ig: seq<Node>, ns: seq<Node>)
    ensures var (r, ok) := IgnoreList(ig, NodeItems(ns));
            && ok
            && ig <= r
            && (forall n :: n in r <==> n in ig || n in ns)
            && IgnoreList(r, NodeItems(ns)) == (r, true)
    decreases |ns|
  {
    if ns != [] {
      assert NodeItems(ns)[1..] == NodeItems(ns[1..]);
      var ig1 := if ns[0] in ig then ig else ig + [ns[0]];
      IgnoreNodes(ig1, ns[1..]);
      var r := IgnoreList(ig1, NodeItems(ns[1..])).0;
      assert forall n :: n in ns <==> n == ns[0] || n in ns[1..] by {
        assert ns == [ns[0]] + ns[1..];
      }
      assert IgnoreList(r, NodeItems(ns)) == IgnoreList(r, NodeItems(ns[1..]));
    }
  }

  /** Ignoring nodes adds each node at most once, and never re-adds one already present. */
  lemma {:induction false} IgnoreNodesOnce(ig: seq<Node>, ns: seq<Node>)
    ensures var r := IgnoreList(ig, NodeItems(ns)).0;
            && (forall n | n in ig :: multiset(r)[n] == multiset(ig)[n])
            && (forall n | n !in ig :: multiset(r)[n] <= 1)
    decreases |ns|
  {
    if ns != [] {
      assert NodeItems(ns)[1..] == NodeItems(ns[1..]);
      var ig1 := if ns[0] in ig then ig else ig + [ns[0]];
      IgnoreNodesOnce(ig1, ns[1..]);
      var r := IgnoreList(ig1, NodeItems(ns[1..])).0;
      forall n | n !in ig
        ensures multiset(r)[n] <= 1
      {
        if n == ns[0] {
          assert multiset(ig1)[n] == 1;
        }
      }
    } else {
      assert forall n | n !in ig :: multiset(ig)[n] == 0;
    }
  }

  /**
   * An edge is never in the ignore list, so it always reaches its target:
   * `visit` queues the target even if ignored, and `ignore` appends it
   * again even if present.
   */
  lemma EdgeItemBypassesIgnores(q: seq<Node>, ig: seq<Node>, e: Edge)
    requires e.target != null && e.target in ig
    ensures VisitList(q, ig, [EdgeItem(e)]) == (q + [e.target], true)
    ensures IgnoreList(ig, [EdgeItem(e)]) == (ig + [e.target], true)
    ensures multiset(IgnoreList(ig, [EdgeItem(e)]).0)[e.target] >= 2
  {
    assert [EdgeItem(e)][1..] == [];
    assert multiset(ig + [e.target]) == multiset(ig) + multiset{e.target};
  }

  // ---------------------------------------------------------------------
  // A whole spawn
  // ---------------------------------------------------------------------

  /** The nodes taken so far followed by the queue: every node queued during the spawn, in queue order. */
  function Queued(s: Walk): seq<Node> {
    s.log.popped + s.next
  }

  /**
   * FIFO discipline: across a run, the taken nodes followed by the queue
   * only ever grow at the end, so nodes are taken in exactly the order they
   * were queued; and nodes once taken stay taken.
   */
  lemma {:induction false} RunIsFifo(w: ArchClass, s: Walk, c: Cursor, script: Script, G: set<Edge>)
    requires s.log.used <= |script| && ScriptWithin(script, G) && ValidCursor(w, c)
    ensures Queued(s) <= Queued(Run(w, s, c, script, G).0)
    ensures s.log.popped <= Run(w, s, c, script, G).0.log.popped
    decreases |script| - s.log.used, QueueRank(s, c), EntriesLeft(w, c)
  {
    match c
    case Idle =>
      if s.next != [] {
        var s1 := s.(next := s.next[1..], log := s.log.(popped := s.log.popped + [s.next[0]]));
        assert Queued(s1) == Queued(s) by {
          assert s.next == [s.next[0]] + s.next[1..];
        }
        RunIsFifo(w, s1, At(s.next[0], 0, 0), script, G);
      }
    case At(nd, j, k) =>
      var t := Tables(w, nd)[j];
      if k == |t.hooks| {
        RunIsFifo(w, s, After(nd, j), script, G);
      } else {
        var h := t.hooks[k];
        if !(Fires(h.trigger, t.types) && h.func.None?) {
          var (s1, err) := if Fires(h.trigger, t.types) then Call(s, HookCall(t.phase, h.name, nd), script, G) else (s, None);
          assert Queued(s) <= Queued(s1);
          if err.None? && !s1.disengaged {
            RunIsFifo(w, s1, At(nd, j, k + 1), script, G);
          }
        }
      }
  }

  /**
   * A run that drains the queue leaves it and the ignore list empty; any
   * other run keeps the ignore list it started with. A set `disengaged`
   * flag survives, and a Disengaged outcome means the flag is set.
   */
  lemma {:induction false} RunEnd(w: ArchClass, s: Walk, c: Cursor, script: Script, G: set<Edge>)
    requires s.log.used <= |script| && ScriptWithin(script, G) && ValidCursor(w, c)
    ensures var r := Run(w, s, c, script, G);
            && (r.1 == Drained ==> r.0.next == [] && r.0.ignores == [])
            && (r.1 != Drained ==> s.ignores <= r.0.ignores)
            && (s.disengaged || r.1 == Disengaged ==> r.0.disengaged)
    decreases |script| - s.log.used, QueueRank(s, c), EntriesLeft(w, c)
  {
    match c
    case Idle =>
      if s.next != [] {
        RunEnd(w, s.(next := s.next[1..], log := s.log.(popped := s.log.popped + [s.next[0]])), At(s.next[0], 0, 0), script, G);
      }
    case At(nd, j, k) =>
      var t := Tables(w, nd)[j];
      if k == |t.hooks| {
        RunEnd(w, s, After(nd, j), script, G);
      } else {
        var h := t.hooks[k];
        if !(Fires(h.trigger, t.types) && h.func.None?) {
          var (s1, err) := if Fires(h.trigger, t.types) then Call(s, HookCall(t.phase, h.name, nd), script, G) else (s, None);
          if err.None? && !s1.disengaged {
            RunEnd(w, s1, At(nd, j, k + 1), script, G);
          }
        }
      }
  }

  /**
   * A walker spawned already disengaged makes at most one hook call: the
   * first table entry it reaches, matching or not, ends the spawn.
   */
  lemma {:induction false} DisengagedAtMostOneCall(w: ArchClass, s: Walk, c: Cursor, script: Script, G: set<Edge>)
    requires s.log.used <= |script| && ScriptWithin(script, G) && ValidCursor(w, c)
    requires s.disengaged
    ensures |Run(w, s, c, script, G).0.log.calls| <= |s.log.calls| + 1
    decreases |script| - s.log.used, QueueRank(s, c), EntriesLeft(w, c)
  {
    match c
    case Idle =>
      if s.next != [] {
        DisengagedAtMostOneCall(w, s.(next := s.next[1..], log := s.log.(popped := s.log.popped + [s.next[0]])), At(s.next[0], 0, 0), script, G);
      }
    case At(nd, j, k) =>
      if k == |Tables(w, nd)[j].hooks| {
        DisengagedAtMostOneCall(w, s, After(nd, j), script, G);
      }
  }

  /**
   * A walker that disengages during a run does not drain the queue: the
   * hook call that disengaged it is made at the node last taken from the
   * queue, so no node is visited after it.
   */
  lemma {:induction false} DisengageEndsRun(w: ArchClass, s: Walk, c: Cursor, script: Script, G: set<Edge>)
    requires s.log.used <= |script| && ScriptWithin(script, G) && ValidCursor(w, c)
    requires c.At? ==> |s.log.popped| > 0 && s.log.popped[|s.log.popped| - 1] == c.nd
    ensures var r := Run(w, s, c, script, G);
            !s.disengaged && r.0.disengaged ==>
              && r.1 != Drained
              && |r.0.log.calls| > |s.log.calls| && |r.0.log.popped| > 0
              && r.0.log.calls[|r.0.log.calls| - 1].here == r.0.log.popped[|r.0.log.popped| - 1]
    decreases |script| - s.log.used, QueueRank(s, c), EntriesLeft(w, c)
  {
    match c
    case Idle =>
      if s.next != [] {
        DisengageEndsRun(w, s.(next := s.next[1..], log := s.log.(popped := s.log.popped + [s.next[0]])), At(s.next[0], 0, 0), script, G);
      }
    case At(nd, j, k) =>
      var t := Tables(w, nd)[j];
      if k == |t.hooks| {
        DisengageEndsRun(w, s, After(nd, j), script, G);
      } else {
        var h := t.hooks[k];
        if !(Fires(h.trigger, t.types) && h.func.None?) {
          var (s1, err) := if Fires(h.trigger, t.types) then Call(s, HookCall(t.phase, h.name, nd), script, G) else (s, None);
          if err.None? && !s1.disengaged {
            DisengageEndsRun(w, s1, At(nd, j, k + 1), script, G);
          }
        }
      }
  }

  /** A hook body that leaves an engaged walker disengaged holds a `disengage`. */
  lemma {:induction false} DisengagedBodyHasDisengage(s: Walk, acts: seq<Action>, G: set<Edge>)
    requires ActionsWithin(acts, G) && !s.disengaged
    ensures ApplyActions(s, acts, G).0.disengaged ==> Disengage in acts
    decreases |acts|
  {
    if acts != [] && acts[0] != Disengage {
      assert EdgesOf(acts[0].Items()) <= G;
      var (s1, ok) := Act(s, acts[0]);
      if ok {
        assert ActionsWithin(acts[1..], G) by {
          forall i | 0 <= i < |acts[1..]| ensures EdgesOf(acts[1..][i].Items()) <= G {
            assert acts[1..][i] == acts[i + 1];
          }
        }
        DisengagedBodyHasDisengage(s1, acts[1..], G);
      }
    }
  }

  /** A hook body holding a `disengage` that raises nothing leaves the walker disengaged. */
  lemma {:induction false} DisengageInBodyDisengages(s: Walk, acts: seq<Action>, G: set<Edge>)
    requires ActionsWithin(acts, G)
    ensures ApplyActions(s, acts, G).1.None? && Disengage in acts ==> ApplyActions(s, acts, G).0.disengaged
    decreases |acts|
  {
    if acts != [] && acts[0] != Disengage {
      assert EdgesOf(acts[0].Items()) <= G;
      var (s1, ok) := Act(s, acts[0]);
      if ok {
        assert ActionsWithin(acts[1..], G) by {
          forall i | 0 <= i < |acts[1..]| ensures EdgesOf(acts[1..][i].Items()) <= G {
            assert acts[1..][i] == acts[i + 1];
          }
        }
        DisengageInBodyDisengages(s1, acts[1..], G);
        assert Disengage in acts ==> Disengage in acts[1..];
      }
    }
  }

  /**
   * The hook call that disengages a walker is the run's last call: every
   * call of the run took one script entry, the body of the last one holds
   * a `disengage`, and no earlier body of the run does. So neither a later
   * entry of the same node nor any later node is called.
   */
  lemma {:induction false} DisengagingCallIsLast(w: ArchClass, s: Walk, c: Cursor, script: Script, G: set<Edge>)
    requires s.log.used <= |script| && ScriptWithin(script, G) && ValidCursor(w, c)
    requires !s.disengaged
    ensures var r := Run(w, s, c, script, G);
            r.0.disengaged ==>
              && s.log.used < r.0.log.used <= |script|
              && |r.0.log.calls| - |s.log.calls| == r.0.log.used - s.log.used
              && Disengage in script[r.0.log.used - 1]
              && forall i | s.log.used <= i < r.0.log.used - 1 :: Disengage !in script[i]
    decreases |script| - s.log.used, QueueRank(s, c), EntriesLeft(w, c)
  {
    match c
    case Idle =>
      if s.next != [] {
        DisengagingCallIsLast(w, s.(next := s.next[1..], log := s.log.(popped := s.log.popped + [s.next[0]])), At(s.next[0], 0, 0), script, G);
      }
    case At(nd, j, k) =>
      var t := Tables(w, nd)[j];
      if k == |t.hooks| {
        DisengagingCallIsLast(w, s, After(nd, j), script, G);
      } else {
        var h := t.hooks[k];
        if !Fires(h.trigger, t.types) {
          DisengagingCallIsLast(w, s, At(nd, j, k + 1), script, G);
        } else if h.func.Some? {
          var call := HookCall(t.phase, h.name, nd);
          var (s1, err) := Call(s, call, script, G);
          if s.log.used < |script| {
            var s0 := s.(log := s.log.(calls := s.log.calls + [call]));
            var sa := s0.(log := s0.log.(used := s.log.used + 1));
            DisengagedBodyHasDisengage(sa, script[s.log.used], G);
            DisengageInBodyDisengages(sa, script[s.log.used], G);
          }
          if err.None? && !s1.disengaged {
            DisengagingCallIsLast(w, s1, At(nd, j, k + 1), script, G);
          }
        }
      }
  }

  /** Every entry of table `t` from `k` on whose trigger matches has a function to call. */
  predicate CallableFrom(t: Table, k: nat) {
    forall i | k <= i < |t.hooks| :: Fires(t.hooks[i].trigger, t.types) ==> t.hooks[i].func.Some?
  }

  /** The rest of a visit to `nd`, from entry k of table j on, has a function for every matching entry. */
  predicate VisitCallableFrom(w: ArchClass, nd: Node, j: nat, k: nat) {
    && (j < 4 ==> CallableFrom(Tables(w, nd)[j], k))
    && forall j' | j < j' < 4 :: CallableFrom(Tables(w, nd)[j'], 0)
  }

  /** Every hook of a visit to `nd` whose trigger matches has a function to call. */
  predicate Callable(w: ArchClass, nd: Node) {
    forall j, h | 0 <= j < 4 && h in Tables(w, nd)[j].hooks && Fires(h.trigger, Tables(w, nd)[j].types) :: h.func.Some?
  }

  /** Some hook of a visit to `nd` whose trigger matches is named `name` and has no function. */
  predicate Uncallable(w: ArchClass, nd: Node, name: string) {
    exists j, h | 0 <= j < 4 && h in Tables(w, nd)[j].hooks ::
      Fires(h.trigger, Tables(w, nd)[j].types) && h.func.None? && h.name == name
  }

  lemma VisitCallable(w: ArchClass, nd: Node)
    requires VisitCallableFrom(w, nd, 0, 0)
    ensures Callable(w, nd)
  {
    forall j, h | 0 <= j < 4 && h in Tables(w, nd)[j].hooks && Fires(h.trigger, Tables(w, nd)[j].types)
      ensures h.func.Some?
    {
      var i :| 0 <= i < |Tables(w, nd)[j].hooks| && Tables(w, nd)[j].hooks[i] == h;
      assert CallableFrom(Tables(w, nd)[j], 0);
    }
  }

  /**
   * A run that drains the queue raised for no hook: every matching hook
   * of every node it took (and of the rest of the visit it started in)
   * has a function to call.
   */
  lemma {:induction false} DrainedRunCallable(w: ArchClass, s: Walk, c: Cursor, script: Script, G: set<Edge>)
    requires s.log.used <= |script| && ScriptWithin(script, G) && ValidCursor(w, c)
    ensures var r := Run(w, s, c, script, G);
            r.1 == Drained ==>
              && (c.At? ==> VisitCallableFrom(w, c.nd, c.j, c.k))
              && s.log.popped <= r.0.log.popped
              && forall i | |s.log.popped| <= i < |r.0.log.popped| :: Callable(w, r.0.log.popped[i])
    decreases |script| - s.log.used, QueueRank(s, c), EntriesLeft(w, c)
  {
    match c
    case Idle =>
      if s.next != [] {
        var nd := s.next[0];
        var s1 := s.(next := s.next[1..], log := s.log.(popped := s.log.popped + [nd]));
        DrainedRunCallable(w, s1, At(nd, 0, 0), script, G);
        var r := Run(w, s1, At(nd, 0, 0), script, G);
        if r.1 == Drained {
          VisitCallable(w, nd);
          assert r.0.log.popped[|s.log.popped|] == nd;
        }
      }
    case At(nd, j, k) =>
      var t := Tables(w, nd)[j];
      if k == |t.hooks| {
        DrainedRunCallable(w, s, After(nd, j), script, G);
      } else {
        var h := t.hooks[k];
        if !(Fires(h.trigger, t.types) && h.func.None?) {
          var (s1, err) := if Fires(h.trigger, t.types) then Call(s, HookCall(t.phase, h.name, nd), script, G) else (s, None);
          if err.None? && !s1.disengaged {
            DrainedRunCallable(w, s1, At(nd, j, k + 1), script, G);
          }
        }
      }
  }

  /**
   * A run that raises for a hook without a function raises it at the last
   * node it took: a matching hook of that node's visit has that name and
   * no function.
   */
  lemma {:induction false} NoFunctionAtLastNode(w: ArchClass, s: Walk, c: Cursor, script: Script, G: set<Edge>)
    requires s.log.used <= |script| && ScriptWithin(script, G) && ValidCursor(w, c)
    requires c.At? ==> |s.log.popped| > 0 && s.log.popped[|s.log.popped| - 1] == c.nd
    ensures var r := Run(w, s, c, script, G);
            r.1.Failed? && r.1.failure.NoFunction? ==>
              |r.0.log.popped| > 0 && Uncallable(w, r.0.log.popped[|r.0.log.popped| - 1], r.1.failure.name)
    decreases |script| - s.log.used, QueueRank(s, c), EntriesLeft(w, c)
  {
    match c
    case Idle =>
      if s.next != [] {
        NoFunctionAtLastNode(w, s.(next := s.next[1..], log := s.log.(popped := s.log.popped + [s.next[0]])), At(s.next[0], 0, 0), script, G);
      }
    case At(nd, j, k) =>
      var t := Tables(w, nd)[j];
      if k == |t.hooks| {
        NoFunctionAtLastNode(w, s, After(nd, j), script, G);
      } else {
        var h := t.hooks[k];
        if Fires(h.trigger, t.types) && h.func.None? {
          assert h in Tables(w, nd)[j].hooks;
        } else {
          var (s1, err) := if Fires(h.trigger, t.types) then Call(s, HookCall(t.phase, h.name, nd), script, G) else (s, None);
          if err.None? && !s1.disengaged {
            NoFunctionAtLastNode(w, s1, At(nd, j, k + 1), script, G);
          }
        }
      }
  }

  /** The calls a hook table makes from an entry on when nothing stops it: every entry whose trigger matches, in table order. */
  function Matched(hooks: seq<DSFunc>, types: set<TypeTag>, phase: Phase, here: Node): seq<HookCall> {
    if hooks == [] then []
    else (if Fires(hooks[0].trigger, types) then [HookCall(phase, hooks[0].name, here)] else [])
         + Matched(hooks[1..], types, phase, here)
  }

  /** The calls of one node visit: node entry, walker entry, walker exit, node exit. */
  function NodeCalls(w: ArchClass, nd: Node): seq<HookCall> {
    Matched(nd.cls.entryFuncs, w.types, NodeEntry, nd)
    + (Matched(w.entryFuncs, nd.cls.types, WalkerEntry, nd)
       + (Matched(w.exitFuncs, nd.cls.types, WalkerExit, nd)
          + Matched(nd.cls.exitFuncs, w.types, NodeExit, nd)))
  }

  /** The calls of visiting the nodes `ns` one after the other. */
  function AllCalls(w: ArchClass, ns: seq<Node>): seq<HookCall> {
    if ns == [] then [] else NodeCalls(w, ns[0]) + AllCalls(w, ns[1..])
  }

  /** The calls still to come in the current node visit. */
  function Pending(w: ArchClass, c: Cursor): seq<HookCall>
    requires ValidCursor(w, c)
    decreases if c.At? && c.j < 4 then 4 - c.j else 0
  {
    match c
    case Idle => []
    case At(nd, j, k) =>
      var t := Tables(w, nd)[j];
      Matched(t.hooks[k..], t.types, t.phase, nd) + (if j == 3 then [] else Pending(w, At(nd, j + 1, 0)))
  }

  lemma PendingAtStart(w: ArchClass, nd: Node)
    ensures Pending(w, At(nd, 0, 0)) == NodeCalls(w, nd)
  {
    var ts := Tables(w, nd);
    assert ts[0].hooks[0..] == ts[0].hooks && ts[1].hooks[0..] == ts[1].hooks;
    assert ts[2].hooks[0..] == ts[2].hooks && ts[3].hooks[0..] == ts[3].hooks;
    var m0 := Matched(ts[0].hooks, ts[0].types, ts[0].phase, nd);
    var m1 := Matched(ts[1].hooks, ts[1].types, ts[1].phase, nd);
    var m2 := Matched(ts[2].hooks, ts[2].types, ts[2].phase, nd);
    var m3 := Matched(ts[3].hooks, ts[3].types, ts[3].phase, nd);
    assert Pending(w, At(nd, 3, 0)) == m3;
    assert Pending(w, At(nd, 2, 0)) == m2 + m3;
    assert Pending(w, At(nd, 1, 0)) == m1 + (m2 + m3);
    assert Pending(w, At(nd, 0, 0)) == m0 + (m1 + (m2 + m3));
  }

  lemma AllCallsCons(w: ArchClass, nd: Node, rest: seq<Node>)
    ensures AllCalls(w, [nd] + rest) == NodeCalls(w, nd) + AllCalls(w, rest)
  {
    assert ([nd] + rest)[1..] == rest;
  }

  /** The calls of a run from cursor c, as RunCalls states them. */
  ghost predicate CallsOfRun(w: ArchClass, s: Walk, c: Cursor, r: (Walk, Outcome))
    requires ValidCursor(w, c)
  {
    && s.log.popped <= r.0.log.popped
    && r.0.log.calls <= s.log.calls + Pending(w, c) + AllCalls(w, r.0.log.popped[|s.log.popped|..])
    && (r.1 == Drained ==> r.0.log.calls == s.log.calls + Pending(w, c) + AllCalls(w, r.0.log.popped[|s.log.popped|..]))
  }

  /**
   * Hook order: the calls of a run are the rest of the current visit's
   * calls followed by the calls of the nodes taken from the queue, node
   * after node in the order taken, each in phase order and table order; a
   * run that stops early made a prefix of them.
   */
  lemma {:induction false} RunCalls(w: ArchClass, s: Walk, c: Cursor, script: Script, G: set<Edge>)
    requires s.log.used <= |script| && ScriptWithin(script, G) && ValidCursor(w, c)
    ensures CallsOfRun(w, s, c, Run(w, s, c, script, G))
    decreases |script| - s.log.used, QueueRank(s, c), EntriesLeft(w, c), 2
  {
    match c
    case Idle =>
      if s.next == [] {
        assert Run(w, s, c, script, G).0.log.popped[|s.log.popped|..] == [];
      } else {
        RunCallsTake(w, s, script, G);
      }
    case At(nd, j, k) =>
      if k == |Tables(w, nd)[j].hooks| {
        RunCalls(w, s, After(nd, j), script, G);
        assert Tables(w, nd)[j].hooks[k..] == [];
        assert Pending(w, c) == Pending(w, After(nd, j));
      } else {
        RunCallsEntry(w, s, nd, j, k, script, G);
      }
  }

  /** RunCalls when the head of the queue is taken. */
  lemma {:induction false} RunCallsTake(w: ArchClass, s: Walk, script: Script, G: set<Edge>)
    requires s.log.used <= |script| && ScriptWithin(script, G) && s.next != []
    ensures CallsOfRun(w, s, Idle, Run(w, s, Idle, script, G))
    decreases |script| - s.log.used, QueueRank(s, Idle), EntriesLeft(w, Idle), 0
  {
    var nd := s.next[0];
    var s1 := s.(next := s.next[1..], log := s.log.(popped := s.log.popped + [nd]));
    var r := Run(w, s1, At(nd, 0, 0), script, G);
    assert Run(w, s, Idle, script, G) == r;
    RunCalls(w, s1, At(nd, 0, 0), script, G);
    PendingAtStart(w, nd);
    var p := r.0.log.popped;
    var n := |s.log.popped|;
    assert s1.log.popped == s.log.popped + [nd] && s1.log.popped <= p;
    var rest := p[n + 1..];
    assert p[n..] == [nd] + rest by {
      assert p[n] == nd;
    }
    AllCallsCons(w, nd, rest);
    var nc := NodeCalls(w, nd);
    assert s1.log.calls + nc + AllCalls(w, rest) == s.log.calls + (nc + AllCalls(w, rest));
    assert s.log.calls + Pending(w, Idle) == s.log.calls;
  }

  /** The calls still to come from entry k on: entry k's own call, if it fires, then the rest. */
  lemma PendingStep(w: ArchClass, nd: Node, j: nat, k: nat)
    requires j < 4 && k < |Tables(w, nd)[j].hooks|
    ensures var t := Tables(w, nd)[j];
            Pending(w, At(nd, j, k))
            == (if Fires(t.hooks[k].trigger, t.types) then [HookCall(t.phase, t.hooks[k].name, nd)] else [])
               + Pending(w, At(nd, j, k + 1))
  {
    var t := Tables(w, nd)[j];
    assert t.hooks[k..][1..] == t.hooks[k + 1..];
  }

  /** RunCalls at entry k of table j. */
  lemma {:induction false} RunCallsEntry(w: ArchClass, s: Walk, nd: Node, j: nat, k: nat, script: Script, G: set<Edge>)
    requires s.log.used <= |script| && ScriptWithin(script, G)
    requires j < 4 && k < |Tables(w, nd)[j].hooks|
    ensures CallsOfRun(w, s, At(nd, j, k), Run(w, s, At(nd, j, k), script, G))
    decreases |script| - s.log.used, QueueRank(s, At(nd, j, k)), EntriesLeft(w, At(nd, j, k)), 1
  {
    var t := Tables(w, nd)[j];
    var h := t.hooks[k];
    PendingStep(w, nd, j, k);
    var rr := Run(w, s, At(nd, j, k), script, G);
    if Fires(h.trigger, t.types) && h.func.None? {
      assert rr.0 == s;
      assert rr.0.log.popped[|s.log.popped|..] == [];
    } else {
      var (s1, err) := if Fires(h.trigger, t.types) then Call(s, HookCall(t.phase, h.name, nd), script, G) else (s, None);
      if err.Some? || s1.disengaged {
        assert rr.0 == s1;
        assert rr.0.log.popped[|s.log.popped|..] == [];
        assert s1.log.calls <= s.log.calls + Pending(w, At(nd, j, k)) + AllCalls(w, []);
      } else {
        RunCallsNext(w, s, s1, nd, j, k, script, G);
      }
    }
  }

  /** RunCalls at entry k of table j when the entry lets the run go on to entry k + 1. */
  lemma {:induction false} RunCallsNext(w: ArchClass, s: Walk, s1: Walk, nd: Node, j: nat, k: nat, script: Script, G: set<Edge>)
    requires s.log.used <= |script| && ScriptWithin(script, G)
    requires j < 4 && k < |Tables(w, nd)[j].hooks|
    requires var t := Tables(w, nd)[j];
             var h := t.hooks[k];
             && !(Fires(h.trigger, t.types) && h.func.None?)
             && (if Fires(h.trigger, t.types) then Call(s, HookCall(t.phase, h.name, nd), script, G) else (s, None)) == (s1, None)
             && !s1.disengaged
    ensures CallsOfRun(w, s, At(nd, j, k), Run(w, s, At(nd, j, k), script, G))
    decreases |script| - s.log.used, QueueRank(s, At(nd, j, k)), EntriesLeft(w, At(nd, j, k)), 0
  {
    var t := Tables(w, nd)[j];
    PendingStep(w, nd, j, k);
    assert Run(w, s, At(nd, j, k), script, G) == Run(w, s1, At(nd, j, k + 1), script, G);
    RunCalls(w, s1, At(nd, j, k + 1), script, G);
    assert s1.log.calls + Pending(w, At(nd, j, k + 1)) == s.log.calls + Pending(w, At(nd, j, k));
  }

  /**
   * A walker spawned engaged that disengages stops before draining: its
   * last call was made at the last node it took, that call's body is the
   * first of the script to hold a `disengage`, and every call took one
   * script entry.
   */
  lemma SpawnDisengaging(w: ArchClass, nd: Node, ignores: seq<Node>, disengaged: bool, script: Script, G: set<Edge>)
    requires ScriptWithin(script, G)
    ensures var r := Run(w, Walk([nd], ignores, disengaged, Log(0, [], [])), Idle, script, G);
            !disengaged && r.0.disengaged ==>
              && r.1 != Drained && |r.0.log.calls| >= 1 && |r.0.log.popped| >= 1
              && r.0.log.calls[|r.0.log.calls| - 1].here == r.0.log.popped[|r.0.log.popped| - 1]
              && |r.0.log.calls| == r.0.log.used <= |script|
              && Disengage in script[r.0.log.used - 1]
              && forall i | 0 <= i < r.0.log.used - 1 :: Disengage !in script[i]
  {
    var s := Walk([nd], ignores, disengaged, Log(0, [], []));
    DisengageEndsRun(w, s, Idle, script, G);
    if !disengaged {
      DisengagingCallIsLast(w, s, Idle, script, G);
    }
  }

  /**
   * A spawn that drains found a function for every matching hook of every
   * node it took; one that raises for a missing function raises it for a
   * matching hook of the last node it took.
   */
  lemma SpawnHooks(w: ArchClass, nd: Node, ignores: seq<Node>, disengaged: bool, script: Script, G: set<Edge>)
    requires ScriptWithin(script, G)
    ensures var r := Run(w, Walk([nd], ignores, disengaged, Log(0, [], [])), Idle, script, G);
            && (r.1 == Drained ==> forall i | 0 <= i < |r.0.log.popped| :: Callable(w, r.0.log.popped[i]))
            && (r.1.Failed? && r.1.failure.NoFunction? ==>
                  |r.0.log.popped| > 0 && Uncallable(w, r.0.log.popped[|r.0.log.popped| - 1], r.1.failure.name))
  {
    var s := Walk([nd], ignores, disengaged, Log(0, [], []));
    DrainedRunCallable(w, s, Idle, script, G);
    NoFunctionAtLastNode(w, s, Idle, script, G);
  }

  /**
   * The run from a freshly spawned walker: the spawn node is taken first;
   * the hook calls are those of the taken nodes in order (a prefix if the
   * spawn stopped early, all of them if it drained); a drained spawn leaves
   * the queue and the ignore list empty, any other keeps the ignore list;
   * a walker spawned disengaged makes at most one call; one that
   * disengages during the spawn stops right after the call whose body
   * disengaged it, before draining and at the last node it took; a drained
   * spawn found a function for every matching hook; and a missing function
   * is raised for a matching hook of the last node taken.
   */
  lemma Spawn(w: ArchClass, nd: Node, ignores: seq<Node>, disengaged: bool, script: Script, G: set<Edge>)
    requires ScriptWithin(script, G)
    ensures var r := Run(w, Walk([nd], ignores, disengaged, Log(0, [], [])), Idle, script, G);
            && |r.0.log.popped| >= 1 && r.0.log.popped[0] == nd
            && r.0.log.calls <= AllCalls(w, r.0.log.popped)
            && (r.1 == Drained ==> r.0.log.calls == AllCalls(w, r.0.log.popped) && r.0.next == [] && r.0.ignores == [])
            && (r.1 != Drained ==> ignores <= r.0.ignores)
            && (disengaged ==> |r.0.log.calls| <= 1)
            && (!disengaged && r.0.disengaged ==>
                  && r.1 != Drained && |r.0.log.calls| >= 1
                  && r.0.log.calls[|r.0.log.calls| - 1].here == r.0.log.popped[|r.0.log.popped| - 1]
                  && |r.0.log.calls| == r.0.log.used <= |script|
                  && Disengage in script[r.0.log.used - 1]
                  && forall i | 0 <= i < r.0.log.used - 1 :: Disengage !in script[i])
            && (r.1 == Drained ==> forall i | 0 <= i < |r.0.log.popped| :: Callable(w, r.0.log.popped[i]))
            && (r.1.Failed? && r.1.failure.NoFunction? ==>
                  Uncallable(w, r.0.log.popped[|r.0.log.popped| - 1], r.1.failure.name))
  {
    var s := Walk([nd], ignores, disengaged, Log(0, [], []));
    var r := Run(w, s, Idle, script, G);
    assert |r.0.log.popped| >= 1 && r.0.log.popped[0] == nd by {
      var s1 := s.(next := s.next[1..], log := s.log.(popped := s.log.popped + [s.next[0]]));
      assert s1.log.popped == [nd];
      RunIsFifo(w, s1, At(nd, 0, 0), script, G);
    }
    assert r.0.log.popped[0..] == r.0.log.popped;
    RunCalls(w, s, Idle, script, G);
    RunEnd(w, s, Idle, script, G);
    if disengaged {
      DisengagedAtMostOneCall(w, s, Idle, script, G);
    }
    SpawnDisengaging(w, nd, ignores, disengaged, script, G);
    SpawnHooks(w, nd, ignores, disengaged, script, G);
  }
}

=== FILE: context.dfy ===
/**
 * The run context of the Jac runtime (jaclang/core/context.py).
 *
 * An execution context owns the session's datasource and resolves the
 * three anchors a run starts from: the super root (fixed id 0), the root
 * (the super root unless another anchor is found) and the entry (the root
 * unless another anchor is found). A context variable holds at most one
 * context. The test counters decide when a test run stops early and when
 * the checker's breaker trips.
 *
 * The datasource is the session's shelf, already opened: a map from ids
 * to stored anchors. Ids are UUIDs, read as numbers.
 */
module RunContext {
  import opened Construct

  /** A node anchor: its id, its access level, the architype it anchors, and its other attributes. */
  class Anchor {
    var id: nat
    var accessLevel: int
    var architype: RootArch?
    var attrs: map<string, string>

    constructor (id: nat, accessLevel: int)
      ensures this.id == id && this.accessLevel == accessLevel && architype == null && attrs == map[]
    {
      this.id := id;
      this.accessLevel := accessLevel;
      architype := null;
      attrs := map[];
    }
  }

  /** The `Root` architype of a new super root; `jac` points back at its anchor. */
  class RootArch {
    var jac: Anchor?

    constructor ()
      ensures jac == null
    {
      jac := null;
    }
  }

  /** The session's datasource: stored anchors by id, and whether it was closed. */
  class Datasource {
    var anchors: map<nat, Anchor>
    var closed: bool

    constructor (anchors: map<nat, Anchor>)
      ensures this.anchors == anchors && !closed
    {
      this.anchors := anchors;
      closed := false;
    }

    /** `set(anchor)`: stores the anchor under its id. */
    method Set(a: Anchor)
      modifies this`anchors
      ensures anchors == old(anchors)[a.id := a]
    {
      anchors := anchors[a.id := a];
    }

    /** `close()`. */
    method Close()
      modifies this`closed
      ensures closed
    {
      closed := true;
    }
  }

  /** What `load` falls back on: an anchor, or the factory that generates the super root. */
  datatype Fallback = Given(a: Anchor) | GenerateSuperRoot

  /**
   * `generate_super_root`: a new anchor with id 0 and access level 1, whose
   * new `Root` architype points back at it, stored in the datasource.
   */
  method NewSuperRoot(ds: Datasource) returns (r: Anchor)
    modifies ds`anchors
    ensures fresh(r) && r.id == 0 && r.accessLevel == 1 && r.attrs == map[]
    ensures r.architype != null && fresh(r.architype) && r.architype.jac == r
    ensures ds.anchors == old(ds.anchors)[0 := r]
  {
    r := new Anchor(0, 1);
    var arch := new RootArch();
    r.architype := arch;
    arch.jac := r;
    ds.Set(r);
  }

  /**
   * `load(anchor, default)`: when an anchor is given and the datasource
   * holds one with its id, the stored attributes are copied onto the given
   * anchor, its access level is set to 1, and it is returned; otherwise the
   * fallback is returned (the factory is called).
   */
  method Load(ds: Datasource, anchor: Anchor?, fallback: Fallback) returns (r: Anchor)
    modifies anchor, ds`anchors
    ensures anchor != null && old(anchor.id in ds.anchors) ==>
              && r == anchor && ds.anchors == old(ds.anchors)
              && anchor.id == old(ds.anchors[anchor.id].id)
              && anchor.architype == old(ds.anchors[anchor.id].architype)
              && anchor.attrs == old(ds.anchors[anchor.id].attrs)
              && anchor.accessLevel == 1
    ensures (anchor == null || old(anchor.id !in ds.anchors)) && fallback.Given? ==>
              r == fallback.a && ds.anchors == old(ds.anchors) && (anchor != null ==> unchanged(anchor))
    ensures (anchor == null || old(anchor.id !in ds.anchors)) && fallback.GenerateSuperRoot? ==>
              && fresh(r) && r.id == 0 && r.accessLevel == 1
              && r.architype != null && fresh(r.architype) && r.architype.jac == r
              && ds.anchors == old(ds.anchors)[0 := r] && (anchor != null ==> unchanged(anchor))
  {
    if anchor != null && anchor.id in ds.anchors {
      var stored := ds.anchors[anchor.id];
      anchor.id, anchor.architype, anchor.attrs := stored.id, stored.architype, stored.attrs;
      anchor.accessLevel := 1;
      r := anchor;
    } else if fallback.Given? {
      r := fallback.a;
    } else {
      r := NewSuperRoot(ds);
    }
  }

  /** An execution context: its datasource, its reports and the run's three anchors. */
  class ExecutionContext {
    const datasource: Datasource
    var reports: seq<string>
    var superRoot: Anchor
    var root: Anchor
    var entry: Anchor

    /**
     * `ExecutionContext(session, root, entry)` on the session's datasource:
     * the super root is loaded at id 0 (generated when absent), then the
     * root falls back on the super root, then the entry on the root. All
     * three end with access level 1.
     */
    constructor (ds: Datasource, root: Anchor?, entry: Anchor?)
      modifies ds`anchors, root, entry
      ensures datasource == ds && reports == []
      ensures fresh(superRoot) && superRoot.accessLevel == 1
      ensures 0 in old(ds.anchors) ==> ds.anchors == old(ds.anchors) && superRoot.id == old(ds.anchors[0].id)
      ensures 0 !in old(ds.anchors) ==>
                && superRoot.id == 0 && ds.anchors == old(ds.anchors)[0 := superRoot]
                && superRoot.architype != null && superRoot.architype.jac == superRoot
      ensures this.root == if root != null && old(root.id) in ds.anchors then root else superRoot
      ensures entry == null ==> this.entry == this.root
      ensures entry != null && entry != root ==>
                this.entry == if old(entry.id) in ds.anchors then entry else this.root
      ensures this.root.accessLevel == 1 && this.entry.accessLevel == 1
    {
      datasource := ds;
      reports := [];
      var bare := new Anchor(0, 0);
      var s := Load(ds, bare, GenerateSuperRoot);
      var r := Load(ds, root, Given(s));
      var e := Load(ds, entry, Given(r));
      superRoot := s;
      this.root := r;
      this.entry := e;
    }

    /** `close()`: closes the datasource. */
    method Close()
      modifies datasource`closed
      ensures datasource.closed
    {
      datasource.Close();
    }
  }

  /** The context variable that holds the current execution context, if any. */
  class ContextSlot {
    var current: ExecutionContext?

    constructor ()
      ensures current == null
    {
      current := null;
    }

    /**
     * `ExecutionContext.get(session, options)`: the context already set,
     * or a new one, which is then set.
     */
    method Get(ds: Datasource, root: Anchor?, entry: Anchor?) returns (ctx: ExecutionContext)
      modifies this`current, ds`anchors, root, entry
      ensures old(current) != null ==>
                && ctx == old(current) && current == ctx && ds.anchors == old(ds.anchors)
                && (root != null ==> unchanged(root)) && (entry != null ==> unchanged(entry))
      ensures old(current) == null ==> fresh(ctx) && current == ctx && ctx.datasource == ds
    {
      if current != null {
        return current;
      }
      ctx := new ExecutionContext(ds, root, entry);
      current := ctx;
    }
  }

  /** Two calls of `get` give the same context: at most one is ever created. */
  method GetTwice(slot: ContextSlot, ds: Datasource) returns (c1: ExecutionContext, c2: ExecutionContext)
    modifies slot, ds`anchors
    ensures c1 == c2 && slot.current == c1
  {
    c1 := slot.Get(ds, null, null);
    c2 := slot.Get(ds, null, null);
  }

  /** The stop rule of `addFailure`: a maximum is set and the count has reached it. */
  predicate StopRequested(failuresCount: int, maxFailures: Option<int>) {
    maxFailures.Some? && failuresCount >= maxFailures.value
  }

  /** The result of one test run: its failures and the stop flag; its count starts at the checker's. */
  class JacTestResult {
    var failures: seq<(string, string)>
    var failuresCount: int
    const maxFailures: Option<int>
    var shouldStop: bool

    /** Stop was requested exactly when some failure brought the count to the maximum. */
    ghost predicate Valid()
      reads this
    {
      shouldStop <==> |failures| > 0 && StopRequested(failuresCount, maxFailures)
    }

    constructor (failcount: int, maxFailures: Option<int>)
      ensures failures == [] && failuresCount == failcount && this.maxFailures == maxFailures && !shouldStop
      ensures Valid()
    {
      failures := [];
      failuresCount := failcount;
      this.maxFailures := maxFailures;
      shouldStop := false;
    }

    /**
     * `addFailure(test, err)`: the failure is recorded, the count goes up
     * by one, and a stop is requested once the count reaches the maximum
     * (never without one).
     */
    method AddFailure(test: string, err: string)
      requires Valid()
      modifies this`failures, this`failuresCount, this`shouldStop
      ensures failures == old(failures) + [(test, err)] && failuresCount == old(failuresCount) + 1
      ensures shouldStop == (old(shouldStop) || StopRequested(failuresCount, maxFailures))
      ensures Valid()
    {
      failures := failures + [(test, err)];
      failuresCount := failuresCount + 1;
      if maxFailures.Some? && failuresCount >= maxFailures.value {
        shouldStop := true;
      }
    }
  }

  /** The checker's breaker rule on a failed run: the count reached `maxfail` when it is non-zero, else always. */
  predicate Breaks(failcount: int, maxfail: Option<int>) {
    if maxfail.Some? && maxfail.value != 0 then failcount >= maxfail.value else true
  }

  /** Once tripped under a limit, the breaker stays tripped as failures accumulate. */
  lemma BreaksStays(c1: int, c2: int, maxfail: Option<int>)
    requires c1 <= c2 && Breaks(c1, maxfail)
    ensures Breaks(c2, maxfail)
  {
  }

  /** `JacTestCheck`'s class-level counters. */
  class JacTestCheck {
    var breaker: bool
    var failcount: int

    constructor ()
      ensures !breaker && failcount == 0
    {
      breaker := false;
      failcount := 0;
    }

    /**
     * The counting part of `run_test`, given the result of running the
     * suite and the number of tests that raised (which the inherited
     * result records): a successful run changes nothing; a failed one adds
     * its failures to `failcount` and sets `breaker` by the rule.
     */
    method RunTest(maxfail: Option<int>, result: JacTestResult, errors: nat)
      modifies this
      ensures |result.failures| == 0 && errors == 0 ==> breaker == old(breaker) && failcount == old(failcount)
      ensures |result.failures| > 0 || errors > 0 ==>
                failcount == old(failcount) + |result.failures| && breaker == Breaks(failcount, maxfail)
      ensures result.Valid() && result.maxFailures == maxfail && result.failuresCount == old(failcount) + |result.failures|
              && |result.failures| > 0 && maxfail.Some? && maxfail.value != 0 ==>
                breaker == result.shouldStop
      ensures old(breaker) && old(Breaks(failcount, maxfail)) ==> breaker
    {
      if !(|result.failures| == 0 && errors == 0) {
        if breaker && Breaks(failcount, maxfail) {
          BreaksStays(failcount, failcount + |result.failures|, maxfail);
        }
        failcount := failcount + |result.failures|;
        breaker := if maxfail.Some? && maxfail.value != 0 then failcount >= maxfail.value else true;
      }
    }
  }
}

=== FILE: jac_context.dfy ===
/**
 * The per-request memory of the FastAPI service's `JacContext`
 * (examples/plugins/jaclang_fastapi/jaclang_fastapi/plugins/common.py).
 *
 * Entries are keyed by `str(id)`, where an id is either an `ObjectId` or
 * a string. The string of an `ObjectId` is its twelve bytes written as
 * 24 lower-case hexadecimal digits, so an id and its string address the
 * same entry, and distinct ids address distinct entries.
 */
module ServiceContext {
  /** An `ObjectId`: twelve bytes, read as one number below 16^24. */
  type ObjectId = n: nat | n < Pow16(24)

  /** What `has`, `get`, `set` and `remove` accept as an id. */
  datatype Key = Oid(oid: ObjectId) | Str(s: string)

  /** 16 to the power `w`. */
  function Pow16(w: nat): (r: nat)
    ensures r > 0
  {
    if w == 0 then 1 else 16 * Pow16(w - 1)
  }

  /** The lower-case hexadecimal digit for a value below 16. */
  function HexDigit(d: nat): char
    requires d < 16
  {
    if d < 10 then ('0' as int + d) as char else ('a' as int + d - 10) as char
  }

  /** The value of a lower-case hexadecimal digit (0 for any other character). */
  function DigitValue(c: char): nat {
    if '0' <= c <= '9' then c as int - '0' as int
    else if 'a' <= c <= 'f' then c as int - 'a' as int + 10
    else 0
  }

  /** `n` written in `w` hexadecimal digits, most significant first. */
  function Hex(n: nat, w: nat): (r: string)
    ensures |r| == w
  {
    if w == 0 then "" else Hex(n / 16, w - 1) + [HexDigit(n % 16)]
  }

  /** The number a string of hexadecimal digits denotes. */
  function ParseHex(s: string): nat {
    if s == [] then 0 else ParseHex(s[..|s| - 1]) * 16 + DigitValue(s[|s| - 1])
  }

  /** `str(id)`. */
  function KeyString(k: Key): (r: string)
    ensures k.Oid? ==> |r| == 24
  {
    match k
    case Oid(n) => Hex(n, 24)
    case Str(s) => s
  }

  lemma DigitRoundTrip(d: nat)
    requires d < 16
    ensures DigitValue(HexDigit(d)) == d
  {
  }

  /** Reading back `w` digits gives the number, when it fits in them. */
  lemma {:induction false} HexRoundTrip(n: nat, w: nat)
    requires n < Pow16(w)
    ensures ParseHex(Hex(n, w)) == n
  {
    if w > 0 {
      var s := Hex(n, w);
      assert s[..|s| - 1] == Hex(n / 16, w - 1);
      HexRoundTrip(n / 16, w - 1);
      DigitRoundTrip(n % 16);
    }
  }

  /** Two ids address the same entry exactly when they are the same id. */
  lemma OidKeysDistinct(a: ObjectId, b: ObjectId)
    ensures KeyString(Oid(a)) == KeyString(Oid(b)) <==> a == b
  {
    HexRoundTrip(a, 24);
    HexRoundTrip(b, 24);
  }

  /** A context's memory: objects by the string of their id. */
  class JacContext<V> {
    var mem: map<string, V>

    constructor ()
      ensures mem == map[]
    {
      mem := map[];
    }

    /** `has(id)`. */
    function Has(id: Key): bool
      reads this`mem
    {
      KeyString(id) in mem
    }

    /** `get(id, default)`: the entry, or `default` on a miss. */
    function Get(id: Key, default: V): (r: V)
      reads this`mem
      ensures !Has(id) ==> r == default
      ensures Has(id) ==> r == mem[KeyString(id)]
    {
      if KeyString(id) in mem then mem[KeyString(id)] else default
    }

    /** `set(id, obj)`: afterwards `id` is present and holds `obj`; no other entry changes. */
    method Set(id: Key, obj: V)
      modifies this`mem
      ensures mem == old(mem)[KeyString(id) := obj]
      ensures Has(id) && forall d: V :: Get(id, d) == obj
      ensures forall other: Key | KeyString(other) != KeyString(id) ::
                Has(other) == old(Has(other)) && (Has(other) ==> mem[KeyString(other)] == old(mem[KeyString(other)]))
    {
      mem := mem[KeyString(id) := obj];
    }

    /** `remove(id)`: afterwards `id` is absent; removing an absent id changes nothing. */
    method Remove(id: Key)
      modifies this`mem
      ensures mem == old(mem) - {KeyString(id)}
      ensures !Has(id) && forall d: V :: Get(id, d) == d
      ensures !old(Has(id)) ==> mem == old(mem)
      ensures forall other: Key | KeyString(other) != KeyString(id) ::
                Has(other) == old(Has(other)) && (Has(other) ==> mem[KeyString(other)] == old(mem[KeyString(other)]))
    {
      mem := mem - {KeyString(id)};
    }
  }
}

=== FILE: persistence.dfy ===
/**
 * The persistence plugin of the FastAPI service
 * (examples/plugins/jaclang_fastapi/jaclang_fastapi/plugins/common.py).
 *
 * Architypes are saved to a document store as records that refer to other
 * architypes through lazy references `{_id, _type, _name}`. A node's
 * record lists its edges' references in four slots indexed by the edge
 * direction's value; an edge's record refers to its source and target.
 * Saving is a small state machine per architype: not yet persisted ->
 * insert; persisted with pending updates -> update; persisted and clean ->
 * nothing. Without a session, the save runs inside a transaction that is
 * committed on success and aborted on failure.
 *
 * The in-process architypes live in an arena (`Graph`): a map from handles
 * to architype values plus a map from handles to their `_jac_doc_`. The
 * store is a map from ids to records; a session buffers the writes of its
 * open transaction.
 */
module Persistence {
  import opened Construct

  /** Why a persistence operation raised. */
  datatype Failure =
    | NoAttribute  // an attribute looked up on None or on a lazy reference
    | BadValue     // an integer that is not a value of the enum
    | NoKey        // a direction the edge dictionary holds no list for
    | NotCallable  // a class lookup that found nothing, called to build an architype
    | WriteFailed  // the store rejected a write

  /** The kind of a stored architype; the values are the enum's integer values. */
  datatype JType = ROOT | NODE | EDGE {
    function Value(): nat {
      match this
      case ROOT => 0
      case NODE => 1
      case EDGE => 2
    }
  }

  /** `JType(v)`: the member whose value is v; any other integer raises. */
  function JTypeOf(v: int): (r: Result<JType, Failure>)
    ensures r.Ok? <==> 0 <= v <= 2
    ensures r.Ok? ==> r.value.Value() == v
  {
    if v == 0 then Ok(ROOT) else if v == 1 then Ok(NODE) else if v == 2 then Ok(EDGE) else Err(BadValue)
  }

  /** `EdgeDir(v)`: the member whose value is v; any other integer raises. */
  function EdgeDirOf(v: int): (r: Result<EdgeDir, Failure>)
    ensures r.Ok? <==> 1 <= v <= 3
    ensures r.Ok? ==> r.value.Value() == v
  {
    if v == 1 then Ok(IN) else if v == 2 then Ok(OUT) else if v == 3 then Ok(ANY) else Err(BadValue)
  }

  /** The stored form of a lazy reference: `{"_id": .., "_type": .., "_name": ..}`. */
  datatype RefJson = RefJson(id: nat, typ: int, name: string)

  /** The identity part of a `DocAnchor`: kind, class name and id. */
  datatype DocAnchor = DocAnchor(jtype: JType, name: string, id: nat) {
    /** `json()`: the reference as stored; reading it back gives this anchor. */
    function Json(): (j: RefJson)
      ensures j.id == id && j.name == name && JTypeOf(j.typ) == Ok(jtype)
    {
      RefJson(id, jtype.Value(), name)
    }
  }

  /** `DocAnchor(type=JType(e["_type"]), name=e["_name"], id=e["_id"])`. */
  function FromJson(j: RefJson): (r: Result<DocAnchor, Failure>)
    ensures r.Ok? <==> 0 <= j.typ <= 2
    ensures r.Ok? ==> r.value.Json() == j
  {
    match JTypeOf(j.typ)
    case Err(f) => Err(f)
    case Ok(t) => Ok(DocAnchor(t, j.name, j.id))
  }

  /** Reading back a stored reference gives the anchor that was stored. */
  lemma JsonRoundTrip(d: DocAnchor)
    ensures FromJson(d.Json()) == Ok(d)
  {
  }

  /** `JCLASS`: per kind (by value), the registered architype classes by name. */
  type Registry = r: seq<map<string, ArchClass>> | |r| == 3 witness [map[], map[], map[]]

  /** `class_ref()`: the registered class of the reference's kind and name, if any. */
  function ClassRef(reg: Registry, d: DocAnchor): (r: Option<ArchClass>)
    ensures r.None? <==> d.name !in reg[d.jtype.Value()]
    ensures r.Some? ==> r.value == reg[d.jtype.Value()][d.name]
  {
    var table := reg[d.jtype.Value()];
    if d.name in table then Some(table[d.name]) else None
  }

  /*
   * translate_edges
   */

  /** The per-direction edge lists built from stored references. */
  type EdgeLists = map<EdgeDir, seq<DocAnchor>>

  /** `doc_edges[EdgeDir(i)].append(DocAnchor(...e...))`. */
  function AddRef(acc: EdgeLists, i: int, e: RefJson): Result<EdgeLists, Failure>
  {
    match EdgeDirOf(i)
    case Err(f) => Err(f)
    case Ok(d) =>
      if d !in acc then Err(NoKey)
      else
        match FromJson(e)
        case Err(f) => Err(f)
        case Ok(a) => Ok(acc[d := acc[d] + [a]])
  }

  /** The inner loop of `translate_edges` over slot i. */
  function AddSlot(acc: EdgeLists, i: int, es: seq<RefJson>): Result<EdgeLists, Failure>
    decreases |es|
  {
    if es == [] then Ok(acc)
    else
      match AddSlot(acc, i, es[..|es| - 1])
      case Err(f) => Err(f)
      case Ok(a) => AddRef(a, i, es[|es| - 1])
  }

  /** `translate_edges`: the references of slot i, in order, appended to the list of direction i. */
  function Translate(slots: seq<seq<RefJson>>): Result<EdgeLists, Failure>
    decreases |slots|
  {
    if slots == [] then Ok(map[IN := [], OUT := []])
    else
      match Translate(slots[..|slots| - 1])
      case Err(f) => Err(f)
      case Ok(a) => AddSlot(a, |slots| - 1, slots[|slots| - 1])
  }

  /** A slot adds to existing lists only. */
  lemma {:induction false} AddSlotKeys(acc: EdgeLists, i: int, es: seq<RefJson>)
    ensures AddSlot(acc, i, es).Ok? ==> AddSlot(acc, i, es).value.Keys == acc.Keys
    decreases |es|
  {
    if es != [] {
      AddSlotKeys(acc, i, es[..|es| - 1]);
    }
  }

  /**
   * A translation that succeeds has exactly the IN and OUT lists: a
   * non-empty slot for any other direction value fails.
   */
  lemma {:induction false} TranslateKeys(slots: seq<seq<RefJson>>)
    ensures Translate(slots).Ok? ==> Translate(slots).value.Keys == {IN, OUT}
    ensures Translate(slots).Ok? ==> forall i | 0 <= i < |slots| && slots[i] != [] :: i == 1 || i == 2
    decreases |slots|
  {
    if slots != [] {
      var n := |slots| - 1;
      TranslateKeys(slots[..n]);
      if Translate(slots).Ok? {
        var a := Translate(slots[..n]).value;
        AddSlotKeys(a, n, slots[n]);
        forall i | 0 <= i < |slots| && slots[i] != []
          ensures i == 1 || i == 2
        {
          if i < n {
            assert slots[..n][i] == slots[i];
          } else {
            AddSlotNonEmpty(a, n, slots[n]);
          }
        }
      }
    }
  }

  /** A non-empty slot succeeds only for the IN and OUT values. */
  lemma AddSlotNonEmpty(acc: EdgeLists, i: int, es: seq<RefJson>)
    requires acc.Keys == {IN, OUT} && es != [] && AddSlot(acc, i, es).Ok?
    ensures i == 1 || i == 2
  {
    var n := |es| - 1;
    AddSlotKeys(acc, i, es[..n]);
  }

  /** `translate_edges`, with its nested loops. */
  method TranslateEdges(slots: seq<seq<RefJson>>) returns (r: Result<EdgeLists, Failure>)
    ensures r == Translate(slots)
  {
    var docEdges: EdgeLists := map[IN := [], OUT := []];
    for i := 0 to |slots|
      invariant Translate(slots[..i]) == Ok(docEdges)
    {
      assert slots[..i + 1][..i] == slots[..i];
      ghost var start := docEdges;
      var es := slots[i];
      for j := 0 to |es|
        invariant AddSlot(start, i, es[..j]) == Ok(docEdges)
      {
        assert es[..j + 1][..j] == es[..j];
        var step := AddRef(docEdges, i, es[j]);
        if step.Err? {
          assert AddSlot(start, i, es[..j + 1]) == step;
          TranslateStopsAt(slots, i, start, j + 1, step.error);
          return Err(step.error);
        }
        docEdges := step.value;
      }
      assert es[..|es|] == es;
    }
    assert slots[..|slots|] == slots;
    return Ok(docEdges);
  }

  /** A failure in slot i, after the earlier slots succeed, is the failure of the whole translation. */
  lemma TranslateStopsAt(slots: seq<seq<RefJson>>, i: nat, start: EdgeLists, j: nat, f: Failure)
    requires i < |slots| && j <= |slots[i]|
    requires Translate(slots[..i]) == Ok(start)
    requires AddSlot(start, i, slots[i][..j]) == Err(f)
    ensures Translate(slots) == Err(f)
  {
    AddSlotStops(start, i, slots[i], j, f);
    assert slots[..i + 1][..i] == slots[..i];
    TranslateKeepsErr(slots, i + 1, f);
  }

  /** Once a prefix of a slot fails, the whole slot fails the same way. */
  lemma {:induction false} AddSlotStops(acc: EdgeLists, i: int, es: seq<RefJson>, j: nat, f: Failure)
    requires j <= |es| && AddSlot(acc, i, es[..j]) == Err(f)
    ensures AddSlot(acc, i, es) == Err(f)
    decreases |es| - j
  {
    if j < |es| {
      assert es[..j + 1][..j] == es[..j];
      AddSlotStops(acc, i, es, j + 1, f);
    } else {
      assert es[..j] == es;
    }
  }

  /** Once a prefix of the slots fails, the whole translation fails the same way. */
  lemma {:induction false} TranslateKeepsErr(slots: seq<seq<RefJson>>, n: nat, f: Failure)
    requires n <= |slots| && Translate(slots[..n]) == Err(f)
    ensures Translate(slots) == Err(f)
    decreases |slots| - n
  {
    if n < |slots| {
      assert slots[..n + 1][..n] == slots[..n];
      TranslateKeepsErr(slots, n + 1, f);
    } else {
      assert slots[..n] == slots;
    }
  }

  /** The stored references of a list of anchors, in order. */
  function Jsons(ds: seq<DocAnchor>): (r: seq<RefJson>)
    ensures |r| == |ds|
  {
    if ds == [] then [] else Jsons(ds[..|ds| - 1]) + [ds[|ds| - 1].Json()]
  }

  /** Entry k of the stored references is the reference of anchor k. */
  lemma {:induction false} JsonsAt(ds: seq<DocAnchor>, k: nat)
    requires k < |ds|
    ensures Jsons(ds)[k] == ds[k].Json()
    decreases |ds|
  {
    if k < |ds| - 1 {
      JsonsAt(ds[..|ds| - 1], k);
    }
  }

  /** The `edg` slots a save writes: nothing in 0 and 3, the IN references in 1, the OUT references in 2. */
  function Slots(ins: seq<RefJson>, outs: seq<RefJson>): seq<seq<RefJson>> {
    [[], ins, outs, []]
  }

  /** Appending the stored references of `ds` to direction `d` appends exactly `ds`. */
  lemma {:induction false} AddSlotJsons(acc: EdgeLists, d: EdgeDir, ds: seq<DocAnchor>)
    requires d in acc
    ensures AddSlot(acc, d.Value(), Jsons(ds)) == Ok(acc[d := acc[d] + ds])
    decreases |ds|
  {
    if ds == [] {
      assert acc[d] + ds == acc[d];
      assert acc[d := acc[d]] == acc;
    } else {
      AddSlotJsons(acc, d, ds[..|ds| - 1]);
      AddSlotJsonsStep(acc, d, ds);
    }
  }

  lemma AddSlotJsonsStep(acc: EdgeLists, d: EdgeDir, ds: seq<DocAnchor>)
    requires d in acc && ds != []
    requires AddSlot(acc, d.Value(), Jsons(ds[..|ds| - 1])) == Ok(acc[d := acc[d] + ds[..|ds| - 1]])
    ensures AddSlot(acc, d.Value(), Jsons(ds)) == Ok(acc[d := acc[d] + ds])
  {
    var init := ds[..|ds| - 1];
    var last := ds[|ds| - 1];
    var a1 := acc[d := acc[d] + init];
    AddSlotJsonsSnoc(acc, d, ds);
    AddRefJson(a1, d, last);
    AppendLast(acc, d, ds);
  }

  lemma AppendLast(acc: EdgeLists, d: EdgeDir, ds: seq<DocAnchor>)
    requires d in acc && ds != []
    ensures var a1 := acc[d := acc[d] + ds[..|ds| - 1]];
            a1[d := a1[d] + [ds[|ds| - 1]]] == acc[d := acc[d] + ds]
  {
    assert acc[d] + ds[..|ds| - 1] + [ds[|ds| - 1]] == acc[d] + ds;
  }

  /** The slot loop over the references of `ds` is the loop over all but the last, then the last. */
  lemma AddSlotJsonsSnoc(acc: EdgeLists, d: EdgeDir, ds: seq<DocAnchor>)
    requires ds != []
    ensures AddSlot(acc, d.Value(), Jsons(ds))
            == match AddSlot(acc, d.Value(), Jsons(ds[..|ds| - 1]))
               case Err(f) => Err(f)
               case Ok(a) => AddRef(a, d.Value(), ds[|ds| - 1].Json())
  {
    var js := Jsons(ds);
    assert js[..|js| - 1] == Jsons(ds[..|ds| - 1]);
  }

  /** Appending one stored reference to an existing direction appends its anchor. */
  lemma AddRefJson(acc: EdgeLists, d: EdgeDir, x: DocAnchor)
    requires d in acc
    ensures AddRef(acc, d.Value(), x.Json()) == Ok(acc[d := acc[d] + [x]])
  {
    JsonRoundTrip(x);
    assert EdgeDirOf(d.Value()) == Ok(d);
  }

  /** Translating one more slot. */
  lemma TranslateStep(slots: seq<seq<RefJson>>, k: nat, a: EdgeLists)
    requires 0 < k <= |slots| && Translate(slots[..k - 1]) == Ok(a)
    ensures Translate(slots[..k]) == AddSlot(a, k - 1, slots[k - 1])
  {
    assert slots[..k][..k - 1] == slots[..k - 1];
  }

  /** Translating slot k - 1 = 1 or 2 of a save's `edg` list appends `ds` to direction `d`. */
  lemma TranslateSlotJsons(slots: seq<seq<RefJson>>, k: nat, d: EdgeDir, a: EdgeLists, ds: seq<DocAnchor>)
    requires 0 < k <= |slots| && d.Value() == k - 1 && slots[k - 1] == Jsons(ds)
    requires Translate(slots[..k - 1]) == Ok(a) && d in a && a[d] == []
    ensures Translate(slots[..k]) == Ok(a[d := ds])
  {
    TranslateStep(slots, k, a);
    AddSlotJsons(a, d, ds);
    assert a[d] + ds == ds;
  }

  /**
   * Round trip of a node's edge references: translating the slots a save
   * writes gives back, per direction, the anchors whose references were
   * written, with their ids, kinds and names, in order.
   */
  lemma TranslateSlots(ins: seq<DocAnchor>, outs: seq<DocAnchor>)
    ensures Translate(Slots(Jsons(ins), Jsons(outs))) == Ok(map[IN := ins, OUT := outs])
  {
    var slots := Slots(Jsons(ins), Jsons(outs));
    TranslateFour(slots, ins, outs);
  }

  lemma TranslateFour(slots: seq<seq<RefJson>>, ins: seq<DocAnchor>, outs: seq<DocAnchor>)
    requires |slots| == 4 && slots[0] == [] && slots[1] == Jsons(ins) && slots[2] == Jsons(outs) && slots[3] == []
    ensures Translate(slots) == Ok(map[IN := ins, OUT := outs])
  {
    var m0: EdgeLists := map[IN := [], OUT := []];
    var m1 := m0[IN := ins];
    var m2 := m1[OUT := outs];
    assert Translate(slots[..3]) == Ok(m2) by {
      assert Translate(slots[..0]) == Ok(m0);
      TranslateStep(slots, 1, m0);
      TranslateSlotJsons(slots, 2, IN, m0, ins);
      TranslateSlotJsons(slots, 3, OUT, m1, outs);
    }
    assert Translate(slots) == Ok(m2) by {
      TranslateStep(slots, 4, m2);
      assert slots[..4] == slots;
    }
    assert m2 == map[IN := ins, OUT := outs];
  }

  /*
   * The store
   */

  /**
   * A stored document: its own reference fields and whichever of `edg`
   * (nodes), `src`, `tgt`, `dir` (edges) and `ctx` it holds.
   */
  datatype Record = Record(ref: RefJson, edg: Option<seq<seq<RefJson>>>, src: Option<RefJson>,
                           tgt: Option<RefJson>, dir: Option<nat>, ctx: map<string, string>)

  /** A write to the store: `insert_one`, or `update_by_id` with `$set` of a node's or an edge's fields. */
  datatype Write =
    | Insert(rec: Record)
    | SetNode(id: nat, edg: seq<seq<RefJson>>, ctx: map<string, string>)
    | SetEdge(id: nat, src: RefJson, tgt: RefJson, dir: nat, ctx: map<string, string>)
  {
    function Id(): nat {
      match this
      case Insert(rec) => rec.ref.id
      case SetNode(id, _, _) => id
      case SetEdge(id, _, _, _, _) => id
    }
  }

  type Docs = map<nat, Record>

  /** The effect of one write; an update of a missing id changes nothing. */
  function Apply(docs: Docs, w: Write): (r: Docs)
    ensures r.Keys == docs.Keys + (if w.Insert? then {w.Id()} else {})
    ensures forall id | id in docs && id != w.Id() :: r[id] == docs[id]
  {
    match w
    case Insert(rec) => docs[rec.ref.id := rec]
    case SetNode(id, edg, ctx) =>
      if id in docs then docs[id := docs[id].(edg := Some(edg), ctx := ctx)] else docs
    case SetEdge(id, src, tgt, dir, ctx) =>
      if id in docs then docs[id := docs[id].(src := Some(src), tgt := Some(tgt), dir := Some(dir), ctx := ctx)] else docs
  }

  /** The effect of a sequence of writes, in order. */
  function ApplyAll(docs: Docs, ws: seq<Write>): Docs
    decreases |ws|
  {
    if ws == [] then docs else Apply(ApplyAll(docs, ws[..|ws| - 1]), ws[|ws| - 1])
  }


  /** Writes to other ids leave an id's record as it was. */
  lemma {:induction false} ApplyAllOthers(docs: Docs, ws: seq<Write>, id: nat)
    requires forall i | 0 <= i < |ws| :: ws[i].Id() != id
    ensures id in ApplyAll(docs, ws) <==> id in docs
    ensures id in docs ==> ApplyAll(docs, ws)[id] == docs[id]
    decreases |ws|
  {
    if ws != [] {
      ApplyAllOthers(docs, ws[..|ws| - 1], id);
    }
  }

  /**
   * At the id of a write, `db1` holds what applying that write alone to
   * `db0` gives.
   */
  ghost predicate Holds(db0: Docs, db1: Docs, w: Write) {
    var id := w.Id();
    (id in db1 <==> id in Apply(db0, w)) && (id in db1 ==> db1[id] == Apply(db0, w)[id])
  }

  /**
   * When the last of a sequence of writes is an insert, or the only one
   * that concerns its id, its id ends up as that write alone makes it.
   */
  lemma LastHolds(db: Docs, ws: seq<Write>, w: Write)
    requires LastWrite([], ws, w) && (!w.Insert? ==> OnlyLast([], ws, w.Id()))
    ensures Holds(db, ApplyAll(db, ws), w)
  {
    var init := ws[..|ws| - 1];
    if !w.Insert? {
      forall i | 0 <= i < |init|
        ensures init[i].Id() != w.Id()
      {
        assert init[i] == ws[i];
      }
      ApplyAllOthers(db, init, w.Id());
    }
  }

  /** The database: committed records by id. */
  class Store {
    var docs: Docs

    constructor (docs: Docs)
      ensures this.docs == docs
    {
      this.docs := docs;
    }

    /** `find_by_id`: the committed record with this id, if any. */
    function FindById(id: nat): (r: Option<Record>)
      reads this`docs
      ensures r.Some? <==> id in docs
      ensures r.Some? ==> r.value == docs[id]
    {
      if id in docs then Some(docs[id]) else None
    }
  }

  /**
   * A client session with one open transaction: the writes it accepted so
   * far, buffered until commit. Which writes the store rejects is given:
   * the write issued as number n (from 0) fails when n is in `failing`.
   */
  class Session {
    const db: Store
    const failing: set<nat>
    var writes: seq<Write>
    var issued: nat

    constructor (db: Store, failing: set<nat>)
      ensures this.db == db && this.failing == failing
      ensures writes == [] && issued == 0
    {
      this.db := db;
      this.failing := failing;
      writes := [];
      issued := 0;
    }

    /** Issues one write inside the transaction; false when the store rejects it. */
    method Put(w: Write) returns (ok: bool)
      modifies this`writes, this`issued
      ensures issued == old(issued) + 1 && ok == (old(issued) !in failing)
      ensures writes == if ok then old(writes) + [w] else old(writes)
    {
      ok := issued !in failing;
      if ok {
        writes := writes + [w];
      }
      issued := issued + 1;
    }

    /** `commit_transaction`: the buffered writes take effect together, in order. */
    method Commit()
      modifies db`docs, this`writes
      ensures db.docs == ApplyAll(old(db.docs), old(writes)) && writes == []
    {
      db.docs := ApplyAll(db.docs, writes);
      writes := [];
    }

    /** `abort_transaction`: the buffered writes are dropped; the database is untouched. */
    method Abort()
      modifies this`writes
      ensures writes == []
    {
      writes := [];
    }
  }

  /*
   * The in-process architypes
   */

  /** An architype handle in the arena. */
  type Handle = nat

  /** An entry of an edge list, or an edge's end: a live architype, or a lazy reference loaded from the store. */
  datatype Ref = Live(h: Handle) | Lazy(doc: DocAnchor)

  /** An architype and its anchor's graph data. */
  datatype Arch =
    | NodeArch(isRoot: bool, cls: ArchClass, ctx: map<string, string>, inEdges: seq<Ref>, outEdges: seq<Ref>)
    | EdgeArch(cls: ArchClass, ctx: map<string, string>, source: Option<Ref>, target: Option<Ref>, dir: Option<EdgeDir>)

  /** The kind a save records: `Root` saves as ROOT, other nodes as NODE, edges as EDGE. */
  function Kind(a: Arch): JType {
    if a.EdgeArch? then EDGE else if a.isRoot then ROOT else NODE
  }

  /** A `_jac_doc_`: the anchor and its pending-update list. */
  datatype Doc = Doc(anchor: DocAnchor, upsert: seq<bool>)

  type Objs = map<Handle, Arch>
  type DocMap = map<Handle, Doc>

  /** Every live entry of an edge list is an edge. */
  ghost predicate EdgeEntries(objs: Objs, es: seq<Ref>) {
    forall i | 0 <= i < |es| && es[i].Live? :: es[i].h in objs && objs[es[i].h].EdgeArch?
  }

  /** A live edge end is a node. */
  ghost predicate NodeEnd(objs: Objs, end: Option<Ref>) {
    end.Some? && end.value.Live? ==> end.value.h in objs && objs[end.value.h].NodeArch?
  }

  /** Node edge lists hold edges and edge ends are nodes, as the attribute types say. */
  ghost predicate Wired(objs: Objs) {
    && (forall k | k in objs && objs[k].NodeArch? :: EdgeEntries(objs, objs[k].inEdges) && EdgeEntries(objs, objs[k].outEdges))
    && (forall k | k in objs && objs[k].EdgeArch? :: NodeEnd(objs, objs[k].source) && NodeEnd(objs, objs[k].target))
  }

  /** Ids handed out so far are below the generator and distinct. */
  ghost predicate DocsOk(docs: DocMap, nextId: nat) {
    && (forall k | k in docs :: docs[k].anchor.id < nextId)
    && (forall k1, k2 | k1 in docs && k2 in docs && k1 != k2 :: docs[k1].anchor.id != docs[k2].anchor.id)
  }

  /** Nodes a save would write: not persisted yet, or with pending updates. */
  ghost function PendingOf(objs: Objs, docs: DocMap): set<Handle> {
    set k | k in objs && Pending(objs, docs, k)
  }

  /** A node a save would write: not persisted yet, or with pending updates. */
  ghost predicate Pending(objs: Objs, docs: DocMap, k: Handle) {
    k in objs && objs[k].NodeArch? && (k !in docs || docs[k].upsert != [])
  }

  /** A persisted node without pending updates: saving it writes nothing. */
  ghost predicate Quiet(objs: Objs, docs: DocMap, k: Handle) {
    k in docs && k in objs && objs[k].NodeArch? && docs[k].upsert == []
  }

  /** `id` is the id of no quiet node. */
  ghost predicate NotQuiet(objs: Objs, docs: DocMap, id: nat) {
    forall k | Quiet(objs, docs, k) :: docs[k].anchor.id != id
  }

  /**
   * How a save may change the documents, the id generator and the
   * transaction's writes: documents are only added (with fresh ids and no
   * pending updates) or have their pending updates cleared; the writes
   * only grow, and none of them is for a node that was persisted and
   * clean.
   */
  ghost predicate Grows(objs: Objs, d0: DocMap, n0: nat, w0: seq<Write>, d1: DocMap, n1: nat, w1: seq<Write>) {
    && (forall k | k in d0 :: k in d1 && d1[k].anchor == d0[k].anchor)
    && (forall k | k in d1 :: d1[k].upsert == [] || (k in d0 && d1[k].upsert == d0[k].upsert))
    && (forall k | k in d1 && k !in d0 :: n0 <= d1[k].anchor.id < n1)
    && n0 <= n1
    && w0 <= w1
    && (forall i | |w0| <= i < |w1| :: NotQuiet(objs, d0, w1[i].Id()))
  }

  /** Growth only takes nodes out of the pending set. */
  lemma QuietGrows(objs: Objs, d0: DocMap, n0: nat, w0: seq<Write>, d1: DocMap, n1: nat, w1: seq<Write>)
    requires Grows(objs, d0, n0, w0, d1, n1, w1)
    ensures PendingOf(objs, d1) <= PendingOf(objs, d0)
  {
  }

  lemma GrowsTrans(objs: Objs, d0: DocMap, n0: nat, w0: seq<Write>, d1: DocMap, n1: nat, w1: seq<Write>,
                   d2: DocMap, n2: nat, w2: seq<Write>)
    requires Grows(objs, d0, n0, w0, d1, n1, w1) && Grows(objs, d1, n1, w1, d2, n2, w2)
    ensures Grows(objs, d0, n0, w0, d2, n2, w2)
  {
    forall i | |w0| <= i < |w2|
      ensures NotQuiet(objs, d0, w2[i].Id())
    {
      if i < |w1| {
        assert w2[i] == w1[i];
      } else {
        forall k | Quiet(objs, d0, k)
          ensures d0[k].anchor.id != w2[i].Id()
        {
          assert Quiet(objs, d1, k);
        }
      }
    }
  }

  /** A write for a node that was not clean keeps the growth. */
  lemma GrowsPut(objs: Objs, d0: DocMap, n0: nat, w0: seq<Write>, d1: DocMap, n1: nat, w1: seq<Write>, w: Write)
    requires Grows(objs, d0, n0, w0, d1, n1, w1) && NotQuiet(objs, d0, w.Id())
    ensures Grows(objs, d0, n0, w0, d1, n1, w1 + [w])
  {
    var w2 := w1 + [w];
    forall i | |w0| <= i < |w2|
      ensures NotQuiet(objs, d0, w2[i].Id())
    {
      if i < |w1| {
        assert w2[i] == w1[i];
      }
    }
  }

  /**
   * Giving a document to an architype without one (fresh id, no pending
   * updates), or clearing a node's pending updates, is growth; the
   * architype's id was not a clean node's, and a node is no longer pending.
   */
  lemma GrowsAssign(objs: Objs, d0: DocMap, n0: nat, w0: seq<Write>, h: Handle, d1: DocMap, n1: nat)
    requires DocsOk(d0, n0) && h in objs
    requires h !in d0 ==> n1 == n0 + 1 && d1 == d0[h := Doc(DocAnchor(Kind(objs[h]), objs[h].cls.name, n0), [])]
    requires h in d0 ==> n1 == n0 && d0[h].upsert != [] && d1 == d0[h := d0[h].(upsert := [])]
    ensures DocsOk(d1, n1) && Grows(objs, d0, n0, w0, d1, n1, w0)
    ensures h in d1 && d1[h].upsert == [] && NotQuiet(objs, d0, d1[h].anchor.id)
    ensures objs[h].NodeArch? ==> Quiet(objs, d1, h)
    ensures objs[h].NodeArch? ==> h in PendingOf(objs, d0) && h !in PendingOf(objs, d1)
    ensures PendingOf(objs, d1) <= PendingOf(objs, d0)
  {
    assert Grows(objs, d0, n0, w0, d1, n1, w0);
  }

  /**
   * How many writes a save issued against how many the store accepted:
   * no more accepted than issued, and a save whose first write was
   * rejected does not succeed.
   */
  ghost predicate Tally(failing: set<nat>, i0: nat, w0: seq<Write>, i1: nat, w1: seq<Write>, ok: bool) {
    i0 <= i1 && |w1| - |w0| <= i1 - i0 && (i0 in failing && i1 > i0 ==> !ok)
  }

  lemma TallyTrans(failing: set<nat>, i0: nat, w0: seq<Write>, i1: nat, w1: seq<Write>, i2: nat, w2: seq<Write>, ok: bool)
    requires Tally(failing, i0, w0, i1, w1, true) && Tally(failing, i1, w1, i2, w2, ok)
    ensures Tally(failing, i0, w0, i2, w2, ok)
  {
  }

  /** `w` is the last of the writes issued after `w0`. */
  ghost predicate LastWrite(w0: seq<Write>, ws: seq<Write>, w: Write) {
    |ws| > |w0| && ws[|ws| - 1] == w
  }

  /** Of the writes issued after `w0`, only the last may concern `id`. */
  ghost predicate OnlyLast(w0: seq<Write>, ws: seq<Write>, id: nat) {
    forall i | |w0| <= i < |ws| - 1 :: ws[i].Id() != id
  }

  /**
   * A write issued after growth from a state where `id` belonged to a
   * clean node is the only one of those writes about `id`.
   */
  lemma PutLast(objs: Objs, d0: DocMap, n0: nat, w0: seq<Write>, d1: DocMap, n1: nat, w1: seq<Write>, w: Write, h: Handle)
    requires Grows(objs, d0, n0, w0, d1, n1, w1) && Quiet(objs, d0, h)
    ensures LastWrite(w0, w1 + [w], w) && OnlyLast(w0, w1 + [w], d0[h].anchor.id)
  {
    var ws := w1 + [w];
    forall i | |w0| <= i < |ws| - 1
      ensures ws[i].Id() != d0[h].anchor.id
    {
      assert ws[i] == w1[i];
    }
  }

  /** An edge's id is no clean node's: ids are distinct. */
  lemma EdgeNotQuiet(objs: Objs, docs: DocMap, n: nat, h: Handle)
    requires DocsOk(docs, n) && h in docs && h in objs && objs[h].EdgeArch?
    ensures NotQuiet(objs, docs, docs[h].anchor.id)
  {
  }

  /** Every entry of an edge list is a live edge that has a document. */
  ghost predicate Saved(docs: DocMap, es: seq<Ref>) {
    forall i | 0 <= i < |es| :: es[i].Live? && es[i].h in docs
  }

  /** The stored references of a saved edge list, in order. */
  function Refs(docs: DocMap, es: seq<Ref>): (r: seq<RefJson>)
    requires Saved(docs, es)
    ensures |r| == |es|
  {
    if es == [] then [] else Refs(docs, es[..|es| - 1]) + [docs[es[|es| - 1].h].anchor.Json()]
  }

  /** Saving one more entry of an edge list. */
  lemma RefsSnoc(docs: DocMap, es: seq<Ref>, i: nat)
    requires i < |es| && Saved(docs, es[..i]) && es[i].Live? && es[i].h in docs
    ensures Saved(docs, es[..i + 1])
    ensures Refs(docs, es[..i + 1]) == Refs(docs, es[..i]) + [docs[es[i].h].anchor.Json()]
  {
    var t := es[..i + 1];
    assert t[..i] == es[..i];
    forall j | 0 <= j < |t|
      ensures t[j].Live? && t[j].h in docs
    {
      if j < i {
        assert t[j] == es[..i][j];
      }
    }
  }

  /** References depend only on the anchors, which a save keeps. */
  lemma {:induction false} RefsKept(d0: DocMap, d1: DocMap, es: seq<Ref>)
    requires Saved(d0, es) && forall k | k in d0 :: k in d1 && d1[k].anchor == d0[k].anchor
    ensures Saved(d1, es) && Refs(d1, es) == Refs(d0, es)
    decreases |es|
  {
    if es != [] {
      RefsKept(d0, d1, es[..|es| - 1]);
    }
  }

  /**
   * The in-process architypes of one service run: architype values by
   * handle, the `_jac_doc_` of those that have one, and the id generator
   * standing for `ObjectId()`.
   */
  class Graph {
    var objs: Objs
    var docs: DocMap
    var nextId: nat

    constructor (objs: Objs, nextId: nat)
      ensures this.objs == objs && docs == map[] && this.nextId == nextId
    {
      this.objs := objs;
      docs := map[];
      this.nextId := nextId;
    }

    /** The record a node's first save inserts. */
    function NodeRecord(h: Handle, slots: seq<seq<RefJson>>): Record
      requires h in objs && h in docs
      reads this`objs, this`docs
    {
      Record(docs[h].anchor.Json(), Some(slots), None, None, None, objs[h].ctx)
    }

    /** The `edg` slots of a node whose edges are all saved. */
    function EdgeSlots(h: Handle): seq<seq<RefJson>>
      requires h in objs && objs[h].NodeArch? && Saved(docs, objs[h].inEdges) && Saved(docs, objs[h].outEdges)
      reads this`objs, this`docs
    {
      Slots(Refs(docs, objs[h].inEdges), Refs(docs, objs[h].outEdges))
    }

    /** The write a node's save issues: the whole record when it is new, else its `edg` slots and fields. */
    function NodeWrite(h: Handle, isNew: bool): Write
      requires h in objs && objs[h].NodeArch? && h in docs && Saved(docs, objs[h].inEdges) && Saved(docs, objs[h].outEdges)
      reads this`objs, this`docs
    {
      if isNew then Insert(NodeRecord(h, EdgeSlots(h))) else SetNode(docs[h].anchor.id, EdgeSlots(h), objs[h].ctx)
    }

    /**
     * `NodeArchitype.save(session)` and `Root.save(session)`. A node
     * without a document gets one (its kind, its class name, a fresh id)
     * BEFORE its edges are saved, IN list then OUT list, and then exactly
     * one record carrying the edges' references and its fields is inserted.
     * A node with pending updates has them cleared, its edges saved, and
     * exactly one update of its `edg` and `ctx` issued. A clean node writes
     * nothing. The document is returned in every case; a failure leaves the
     * document and the cleared updates in place.
     */
    method SaveNodeIn(h: Handle, s: Session) returns (r: Result<DocAnchor, Failure>)
      requires h in objs && objs[h].NodeArch? && Wired(objs) && DocsOk(docs, nextId)
      modifies this`docs, this`nextId, s`writes, s`issued
      ensures DocsOk(docs, nextId) && Grows(objs, old(docs), old(nextId), old(s.writes), docs, nextId, s.writes)
      ensures Tally(s.failing, old(s.issued), old(s.writes), s.issued, s.writes, r.Ok?)
      ensures h in docs && docs[h].upsert == []
      ensures old(h !in docs) ==> docs[h].anchor == DocAnchor(Kind(objs[h]), objs[h].cls.name, old(nextId))
      ensures r.Ok? ==> r.value == docs[h].anchor
      ensures objs[h].inEdges == [] && objs[h].outEdges == [] && old(s.issued) !in s.failing ==> r.Ok?
      ensures old(h in docs && docs[h].upsert == []) ==>
                r.Ok? && docs == old(docs) && nextId == old(nextId) && s.writes == old(s.writes) && s.issued == old(s.issued)
      ensures old(h !in docs || docs[h].upsert != []) && r.Ok? ==>
                && Saved(docs, objs[h].inEdges) && Saved(docs, objs[h].outEdges)
                && LastWrite(old(s.writes), s.writes, NodeWrite(h, old(h !in docs)))
                && OnlyLast(old(s.writes), s.writes, docs[h].anchor.id)
      decreases PendingOf(objs, docs), 1
    {
      if h in docs && docs[h].upsert == [] {
        return Ok(docs[h].anchor);
      }
      r := SaveDirtyNode(h, s);
    }

    /** The part of a node save that writes: the node is new or has pending updates. */
    method SaveDirtyNode(h: Handle, s: Session) returns (r: Result<DocAnchor, Failure>)
      requires h in objs && objs[h].NodeArch? && Wired(objs) && DocsOk(docs, nextId)
      requires h !in docs || docs[h].upsert != []
      modifies this`docs, this`nextId, s`writes, s`issued
      ensures DocsOk(docs, nextId) && Grows(objs, old(docs), old(nextId), old(s.writes), docs, nextId, s.writes)
      ensures Tally(s.failing, old(s.issued), old(s.writes), s.issued, s.writes, r.Ok?)
      ensures h in docs && docs[h].upsert == []
      ensures old(h !in docs) ==> docs[h].anchor == DocAnchor(Kind(objs[h]), objs[h].cls.name, old(nextId))
      ensures r.Ok? ==> r.value == docs[h].anchor
      ensures objs[h].inEdges == [] && objs[h].outEdges == [] && old(s.issued) !in s.failing ==> r.Ok?
      ensures r.Ok? ==>
                && Saved(docs, objs[h].inEdges) && Saved(docs, objs[h].outEdges)
                && LastWrite(old(s.writes), s.writes, NodeWrite(h, old(h !in docs)))
                && OnlyLast(old(s.writes), s.writes, docs[h].anchor.id)
      decreases PendingOf(objs, docs), 0
    {
      var a := objs[h];
      ghost var d0, n0, w0 := docs, nextId, s.writes;
      var isNew := h !in docs;
      AssignDoc(h, s.writes);
      var id := docs[h].anchor.id;
      ghost var d1, n1, w1, i1 := docs, nextId, s.writes, s.issued;
      var slots := SaveNodeEdges(h, s);
      GrowsTrans(objs, d0, n0, w0, d1, n1, w1, docs, nextId, s.writes);
      if slots.Err? {
        r := Err(slots.error);
      } else {
        var w := if isNew then Insert(NodeRecord(h, slots.value)) else SetNode(id, slots.value, a.ctx);
        ghost var nw := NodeWrite(h, isNew);
        assert w == nw;
        ghost var w3 := s.writes;
        var ok := PutGrowing(w, s, d0, n0, w0, i1, w1);
        if ok {
          PutLast(objs, d1, n1, w1, docs, nextId, w3, nw, h);
          r := Ok(docs[h].anchor);
        } else {
          r := Err(WriteFailed);
        }
      }
    }

    /** Issues a save's own write, which concerns no node that was clean when the save began. */
    method PutGrowing(w: Write, s: Session, ghost d0: DocMap, ghost n0: nat, ghost w0: seq<Write>, ghost i1: nat, ghost w1: seq<Write>)
      returns (ok: bool)
      requires Grows(objs, d0, n0, w0, docs, nextId, s.writes) && NotQuiet(objs, d0, w.Id())
      requires Tally(s.failing, i1, w1, s.issued, s.writes, true)
      modifies s`writes, s`issued
      ensures ok == (old(s.issued) !in s.failing)
      ensures s.writes == if ok then old(s.writes) + [w] else old(s.writes)
      ensures Tally(s.failing, i1, w1, s.issued, s.writes, ok)
      ensures Grows(objs, d0, n0, w0, docs, nextId, s.writes)
    {
      ghost var w2, i2 := s.writes, s.issued;
      ok := s.Put(w);
      TallyTrans(s.failing, i1, w1, i2, w2, s.issued, s.writes, ok);
      if ok {
        GrowsPut(objs, d0, n0, w0, docs, nextId, w2, w);
      }
    }

    /**
     * The first step of a save: an architype without a document gets one
     * (its kind, its class name, the next id); a node with pending updates
     * has them cleared.
     */
    method AssignDoc(h: Handle, ghost ws: seq<Write>)
      requires h in objs && DocsOk(docs, nextId) && (h in docs ==> objs[h].NodeArch? && docs[h].upsert != [])
      modifies this`docs, this`nextId
      ensures DocsOk(docs, nextId) && Grows(objs, old(docs), old(nextId), ws, docs, nextId, ws)
      ensures old(h !in docs) ==> nextId == old(nextId) + 1 && docs == old(docs)[h := Doc(DocAnchor(Kind(objs[h]), objs[h].cls.name, old(nextId)), [])]
      ensures old(h in docs) ==> nextId == old(nextId) && docs == old(docs)[h := old(docs[h]).(upsert := [])]
      ensures h in docs && docs[h].upsert == [] && NotQuiet(objs, old(docs), docs[h].anchor.id)
      ensures objs[h].NodeArch? ==> Quiet(objs, docs, h)
      ensures objs[h].NodeArch? ==> h in PendingOf(objs, old(docs)) && h !in PendingOf(objs, docs)
      ensures PendingOf(objs, docs) <= PendingOf(objs, old(docs))
    {
      ghost var d0 := docs;
      if h !in docs {
        docs := docs[h := Doc(DocAnchor(Kind(objs[h]), objs[h].cls.name, nextId), [])];
        nextId := nextId + 1;
      } else {
        docs := docs[h := docs[h].(upsert := [])];
      }
      GrowsAssign(objs, d0, old(nextId), ws, h, docs, nextId);
    }

    /** The two edge-list loops of a node save, IN list first; their references as `edg` slots. */
    method SaveNodeEdges(h: Handle, s: Session) returns (r: Result<seq<seq<RefJson>>, Failure>)
      requires h in objs && objs[h].NodeArch? && Wired(objs) && DocsOk(docs, nextId)
      modifies this`docs, this`nextId, s`writes, s`issued
      ensures DocsOk(docs, nextId) && Grows(objs, old(docs), old(nextId), old(s.writes), docs, nextId, s.writes)
      ensures Tally(s.failing, old(s.issued), old(s.writes), s.issued, s.writes, r.Ok?)
      ensures r.Ok? ==> Saved(docs, objs[h].inEdges) && Saved(docs, objs[h].outEdges) && r.value == EdgeSlots(h)
      ensures objs[h].inEdges == [] && objs[h].outEdges == [] ==> r.Ok? && s.issued == old(s.issued)
      decreases PendingOf(objs, docs), 7
    {
      ghost var d0, n0, w0, i0 := docs, nextId, s.writes, s.issued;
      var ri := SaveEdgeList(objs[h].inEdges, s);
      if ri.Err? {
        return Err(ri.error);
      }
      ghost var d1, n1, w1, i1 := docs, nextId, s.writes, s.issued;
      QuietGrows(objs, d0, n0, w0, d1, n1, w1);
      var ro := SaveEdgeList(objs[h].outEdges, s);
      GrowsTrans(objs, d0, n0, w0, d1, n1, w1, docs, nextId, s.writes);
      TallyTrans(s.failing, i0, w0, i1, w1, s.issued, s.writes, ro.Ok?);
      if ro.Err? {
        return Err(ro.error);
      }
      RefsKept(d1, docs, objs[h].inEdges);
      return Ok(Slots(ri.value, ro.value));
    }

    /**
     * The loop of a node save over one edge list: each entry saved in
     * order, its reference collected. A lazy entry has no `save` and raises.
     */
    method SaveEdgeList(es: seq<Ref>, s: Session) returns (r: Result<seq<RefJson>, Failure>)
      requires EdgeEntries(objs, es) && Wired(objs) && DocsOk(docs, nextId)
      modifies this`docs, this`nextId, s`writes, s`issued
      ensures DocsOk(docs, nextId) && Grows(objs, old(docs), old(nextId), old(s.writes), docs, nextId, s.writes)
      ensures Tally(s.failing, old(s.issued), old(s.writes), s.issued, s.writes, r.Ok?)
      ensures r.Ok? ==> Saved(docs, es) && r.value == Refs(docs, es)
      ensures es == [] ==> r.Ok? && s.issued == old(s.issued)
      decreases PendingOf(objs, docs), 6
    {
      ghost var d0, n0, w0, i0 := docs, nextId, s.writes, s.issued;
      var acc: seq<RefJson> := [];
      for i := 0 to |es|
        invariant DocsOk(docs, nextId) && Grows(objs, d0, n0, w0, docs, nextId, s.writes)
        invariant Tally(s.failing, i0, w0, s.issued, s.writes, true) && (i == 0 ==> s.issued == i0)
        invariant PendingOf(objs, docs) <= PendingOf(objs, d0)
        invariant Saved(docs, es[..i]) && acc == Refs(docs, es[..i])
      {
        ghost var d1, n1, w1, i1 := docs, nextId, s.writes, s.issued;
        var re := SaveEntry(es, i, s);
        GrowsTrans(objs, d0, n0, w0, d1, n1, w1, docs, nextId, s.writes);
        TallyTrans(s.failing, i0, w0, i1, w1, s.issued, s.writes, re.Ok?);
        if re.Err? {
          return Err(re.error);
        }
        acc := acc + [re.value.Json()];
      }
      assert es[..|es|] == es;
      return Ok(acc);
    }

    /** One entry of a node's edge-list loop: `earch.save(session)`, whose reference is collected next. */
    method SaveEntry(es: seq<Ref>, i: nat, s: Session) returns (r: Result<DocAnchor, Failure>)
      requires i < |es| && EdgeEntries(objs, es) && Wired(objs) && DocsOk(docs, nextId) && Saved(docs, es[..i])
      modifies this`docs, this`nextId, s`writes, s`issued
      ensures DocsOk(docs, nextId) && Grows(objs, old(docs), old(nextId), old(s.writes), docs, nextId, s.writes)
      ensures Tally(s.failing, old(s.issued), old(s.writes), s.issued, s.writes, r.Ok?)
      ensures PendingOf(objs, docs) <= old(PendingOf(objs, docs))
      ensures r.Ok? ==> Saved(docs, es[..i + 1]) && Refs(docs, es[..i + 1]) == old(Refs(docs, es[..i])) + [r.value.Json()]
      decreases PendingOf(objs, docs), 5
    {
      if es[i].Lazy? {
        return Err(NoAttribute);
      }
      ghost var d0, n0, w0 := docs, nextId, s.writes;
      r := SaveEdgeIn(es[i].h, s);
      QuietGrows(objs, d0, n0, w0, docs, nextId, s.writes);
      if r.Ok? {
        RefsKept(d0, docs, es[..i]);
        RefsSnoc(docs, es, i);
      }
    }

    /** `end.save(session)` for an edge's source or target: None and lazy references have no `save`. */
    method SaveEnd(end: Option<Ref>, s: Session) returns (r: Result<DocAnchor, Failure>)
      requires NodeEnd(objs, end) && Wired(objs) && DocsOk(docs, nextId)
      modifies this`docs, this`nextId, s`writes, s`issued
      ensures DocsOk(docs, nextId) && Grows(objs, old(docs), old(nextId), old(s.writes), docs, nextId, s.writes)
      ensures Tally(s.failing, old(s.issued), old(s.writes), s.issued, s.writes, r.Ok?)
      ensures r.Ok? ==> end.Some? && end.value.Live? && end.value.h in docs && r.value == docs[end.value.h].anchor
      decreases PendingOf(objs, docs), 2
    {
      if end.None? || end.value.Lazy? {
        return Err(NoAttribute);
      }
      r := SaveNodeIn(end.value.h, s);
    }

    /** The record a new edge's save inserts. */
    function EdgeRecord(h: Handle, src: Handle, tgt: Handle): Record
      requires h in objs && objs[h].EdgeArch? && objs[h].dir.Some? && h in docs && src in docs && tgt in docs
      reads this`objs, this`docs
    {
      Record(docs[h].anchor.Json(), None, Some(docs[src].anchor.Json()), Some(docs[tgt].anchor.Json()),
             Some(objs[h].dir.value.Value()), objs[h].ctx)
    }

    /** The write an edge's save issues: the whole record when it is new, else its references, direction and fields. */
    function EdgeWrite(h: Handle, isNew: bool, src: Handle, tgt: Handle): Write
      requires h in objs && objs[h].EdgeArch? && objs[h].dir.Some? && h in docs && src in docs && tgt in docs
      reads this`objs, this`docs
    {
      if isNew then Insert(EdgeRecord(h, src, tgt))
      else SetEdge(docs[h].anchor.id, docs[src].anchor.Json(), docs[tgt].anchor.Json(),
                   objs[h].dir.value.Value(), objs[h].ctx)
    }

    /**
     * `EdgeArchitype.save(session)`. An edge without a document gets one;
     * its source is saved, then its target, and exactly one record with
     * their references, its direction value and its fields is inserted. A
     * persisted edge saves its ends the same way and always issues one
     * update: edges have no pending-update check. A missing or lazy end, or
     * a missing direction, raises.
     */
    method SaveEdgeIn(h: Handle, s: Session) returns (r: Result<DocAnchor, Failure>)
      requires h in objs && objs[h].EdgeArch? && Wired(objs) && DocsOk(docs, nextId)
      modifies this`docs, this`nextId, s`writes, s`issued
      ensures DocsOk(docs, nextId) && Grows(objs, old(docs), old(nextId), old(s.writes), docs, nextId, s.writes)
      ensures Tally(s.failing, old(s.issued), old(s.writes), s.issued, s.writes, r.Ok?)
      ensures h in docs
      ensures old(h !in docs) ==> docs[h].anchor == DocAnchor(EDGE, objs[h].cls.name, old(nextId))
      ensures r.Ok? ==> r.value == docs[h].anchor
      ensures r.Ok? ==>
                var e := objs[h];
                && e.source.Some? && e.source.value.Live? && e.source.value.h in docs
                && e.target.Some? && e.target.value.Live? && e.target.value.h in docs
                && e.dir.Some?
                && LastWrite(old(s.writes), s.writes, EdgeWrite(h, old(h !in docs), e.source.value.h, e.target.value.h))
      decreases PendingOf(objs, docs), 4
    {
      var e := objs[h];
      ghost var d0, n0, w0 := docs, nextId, s.writes;
      var isNew := h !in docs;
      if isNew {
        AssignDoc(h, s.writes);
      } else {
        EdgeNotQuiet(objs, docs, nextId, h);
      }
      ghost var d1, n1, w1, i1 := docs, nextId, s.writes, s.issued;
      QuietGrows(objs, d0, n0, w0, d1, n1, w1);
      var ends := SaveEnds(h, s);
      GrowsTrans(objs, d0, n0, w0, d1, n1, w1, docs, nextId, s.writes);
      if ends.Err? {
        return Err(ends.error);
      }
      var (rs, rt) := ends.value;
      var w;
      if isNew {
        w := Insert(Record(docs[h].anchor.Json(), None, Some(rs.Json()), Some(rt.Json()),
                           Some(e.dir.value.Value()), e.ctx));
      } else {
        w := SetEdge(docs[h].anchor.id, rs.Json(), rt.Json(), e.dir.value.Value(), e.ctx);
      }
      ghost var ew := EdgeWrite(h, isNew, e.source.value.h, e.target.value.h);
      assert w == ew;
      var ok := PutGrowing(w, s, d0, n0, w0, i1, w1);
      if !ok {
        return Err(WriteFailed);
      }
      assert LastWrite(w0, s.writes, ew);
      return Ok(docs[h].anchor);
    }

    /** An edge save's two end saves, source first, and its direction check. */
    method SaveEnds(h: Handle, s: Session) returns (r: Result<(DocAnchor, DocAnchor), Failure>)
      requires h in objs && objs[h].EdgeArch? && Wired(objs) && DocsOk(docs, nextId)
      modifies this`docs, this`nextId, s`writes, s`issued
      ensures DocsOk(docs, nextId) && Grows(objs, old(docs), old(nextId), old(s.writes), docs, nextId, s.writes)
      ensures Tally(s.failing, old(s.issued), old(s.writes), s.issued, s.writes, r.Ok?)
      ensures r.Ok? ==>
                var e := objs[h];
                && e.source.Some? && e.source.value.Live? && e.source.value.h in docs
                && e.target.Some? && e.target.value.Live? && e.target.value.h in docs
                && e.dir.Some?
                && r.value == (docs[e.source.value.h].anchor, docs[e.target.value.h].anchor)
      decreases PendingOf(objs, docs), 3
    {
      var e := objs[h];
      ghost var d0, n0, w0, i0 := docs, nextId, s.writes, s.issued;
      var rs := SaveEnd(e.source, s);
      if rs.Err? {
        return Err(rs.error);
      }
      ghost var d1, n1, w1, i1 := docs, nextId, s.writes, s.issued;
      QuietGrows(objs, d0, n0, w0, d1, n1, w1);
      var rt := SaveEnd(e.target, s);
      GrowsTrans(objs, d0, n0, w0, d1, n1, w1, docs, nextId, s.writes);
      TallyTrans(s.failing, i0, w0, i1, w1, s.issued, s.writes, rt.Ok? && e.dir.Some?);
      if rt.Err? {
        return Err(rt.error);
      }
      if e.dir.None? {
        return Err(NoAttribute);
      }
      return Ok((rs.value, rt.value));
    }

    /**
     * `save()` without a session: a session is opened and a transaction
     * started, the architype saved in it, and the transaction committed;
     * when the save raises, the transaction is aborted and the error raised
     * again. The documents assigned and the pending updates cleared during
     * a failed save are kept.
     */
    method Save(h: Handle, db: Store, failing: set<nat>) returns (r: Result<DocAnchor, Failure>, ghost ws: seq<Write>)
      requires h in objs && Wired(objs) && DocsOk(docs, nextId)
      modifies this`docs, this`nextId, db`docs
      ensures DocsOk(docs, nextId) && Grows(objs, old(docs), old(nextId), [], docs, nextId, ws)
      ensures r.Ok? ==> db.docs == ApplyAll(old(db.docs), ws)
      ensures r.Err? ==> db.docs == old(db.docs)
      ensures h in docs && (objs[h].NodeArch? ==> docs[h].upsert == [])
      ensures r.Ok? ==> r.value == docs[h].anchor
      ensures old(Quiet(objs, docs, h)) ==> r.Ok? && ws == [] && docs == old(docs) && db.docs == old(db.docs)
      ensures 0 in failing && !old(Quiet(objs, docs, h)) ==> r.Err?
      ensures objs[h].NodeArch? && objs[h].inEdges == [] && objs[h].outEdges == [] && 0 !in failing ==> r.Ok?
      ensures r.Ok? && objs[h].NodeArch? && !old(Quiet(objs, docs, h)) ==>
                && Saved(docs, objs[h].inEdges) && Saved(docs, objs[h].outEdges)
                && Holds(old(db.docs), db.docs, NodeWrite(h, old(h !in docs)))
      ensures r.Ok? && objs[h].EdgeArch? ==>
                var e := objs[h];
                && e.source.Some? && e.source.value.Live? && e.source.value.h in docs
                && e.target.Some? && e.target.value.Live? && e.target.value.h in docs
                && e.dir.Some?
                && (old(h !in docs) ==> Holds(old(db.docs), db.docs, EdgeWrite(h, true, e.source.value.h, e.target.value.h)))
    {
      ghost var db0 := db.docs;
      var isNew := h !in docs;
      ghost var quiet := Quiet(objs, docs, h);
      var s := new Session(db, failing);
      if objs[h].NodeArch? {
        r := SaveNodeIn(h, s);
      } else {
        r := SaveEdgeIn(h, s);
      }
      ws := s.writes;
      if r.Ok? {
        s.Commit();
        if objs[h].NodeArch? && !quiet {
          LastHolds(db0, ws, NodeWrite(h, isNew));
        } else if objs[h].EdgeArch? && isNew {
          LastHolds(db0, ws, EdgeWrite(h, true, objs[h].source.value.h, objs[h].target.value.h));
        }
      } else {
        s.Abort();
      }
    }

    /**
     * A save as its callers evidently expect it: like `Save`, but a failed
     * save also undoes the documents it assigned and the pending updates it
     * cleared, so the architypes look unsaved again, as the database does.
     */
    method SaveAtomic(h: Handle, db: Store, failing: set<nat>) returns (r: Result<DocAnchor, Failure>, ghost ws: seq<Write>)
      requires h in objs && Wired(objs) && DocsOk(docs, nextId)
      modifies this`docs, this`nextId, db`docs
      ensures DocsOk(docs, nextId)
      ensures r.Ok? ==> Grows(objs, old(docs), old(nextId), [], docs, nextId, ws) && db.docs == ApplyAll(old(db.docs), ws)
      ensures r.Ok? ==> h in docs && r.value == docs[h].anchor
      ensures r.Err? ==> docs == old(docs) && db.docs == old(db.docs)
      ensures old(Quiet(objs, docs, h)) ==> r.Ok? && ws == [] && docs == old(docs) && db.docs == old(db.docs)
      ensures 0 in failing && !old(Quiet(objs, docs, h)) ==> r.Err?
      ensures objs[h].NodeArch? && objs[h].inEdges == [] && objs[h].outEdges == [] && 0 !in failing ==> r.Ok?
      ensures r.Ok? && objs[h].NodeArch? && !old(Quiet(objs, docs, h)) ==>
                && Saved(docs, objs[h].inEdges) && Saved(docs, objs[h].outEdges)
                && Holds(old(db.docs), db.docs, NodeWrite(h, old(h !in docs)))
    {
      var before := docs;
      r, ws := Save(h, db, failing);
      if r.Err? {
        docs := before;
      }
    }

    /** `update(up)`: records a pending update on a node that has a document; otherwise nothing. */
    method Update(h: Handle, up: bool)
      modifies this`docs
      ensures h in old(docs) ==> docs == old(docs)[h := old(docs[h]).(upsert := old(docs[h].upsert) + [up])]
      ensures h !in old(docs) ==> docs == old(docs)
      ensures DocsOk(old(docs), nextId) ==> DocsOk(docs, nextId)
      ensures h in objs && objs[h].NodeArch? ==> Pending(objs, docs, h)
      ensures forall k | Pending(objs, old(docs), k) :: Pending(objs, docs, k)
    {
      if h in docs {
        docs := docs[h := docs[h].(upsert := docs[h].upsert + [up])];
      }
    }

    /**
     * `EdgeAnchor.attach` of the persistence layer: the edge is wired as
     * `Wire` says (`Edge.Attach` of the in-memory graph), then both ends
     * record a pending update, so the next save of either end writes it.
     */
    method Attach(e: Handle, src: Handle, trg: Handle)
      requires e in objs && objs[e].EdgeArch? && src in objs && objs[src].NodeArch? && trg in objs && objs[trg].NodeArch?
      requires Wired(objs) && DocsOk(docs, nextId)
      modifies this`objs, this`docs
      ensures Wired(objs) && DocsOk(docs, nextId)
      ensures var (s, t) := Oriented(old(objs[e].dir), src, trg);
              && objs == Wire(old(objs), e, s, t)
              && docs.Keys == old(docs.Keys)
              && (forall k | k in docs && k != s && k != t :: docs[k] == old(docs[k]))
              && (forall k | k in docs :: docs[k].anchor == old(docs[k].anchor))
              && Pending(objs, docs, s) && Pending(objs, docs, t)
    {
      var (s, t) := Oriented(objs[e].dir, src, trg);
      WireWired(objs, e, s, t);
      WireEffect(objs, e, s, t);
      objs := Wire(objs, e, s, t);
      UpdateEnds(s, t);
    }

    /**
     * `NodeAnchor.edges_to_nodes` of the persistence layer: the node's
     * edge list for `dir` (only IN and OUT have one) is walked in order,
     * lazy entries are loaded from the store, an edge is kept when the end
     * it leads to is set and it is an instance of the filter type, the
     * kept edges go through `select` (the identity when none is given),
     * and each chosen edge is replaced by that end.
     */
    method EdgesToNodes(h: Handle, dir: EdgeDir, filter: set<TypeTag>, select: Option<seq<Loaded> -> seq<Loaded>>,
                        reg: Registry, db: Store) returns (r: Result<seq<Option<Ref>>, Failure>)
      requires h in objs && objs[h].NodeArch? && Wired(objs)
      ensures dir == ANY ==> r == Err(NoKey)
      ensures dir != ANY ==>
                var es := if dir == IN then objs[h].inEdges else objs[h].outEdges;
                match Collect(objs, reg, db.docs, es, dir, filter)
                case Err(f) => r == Err(f)
                case Ok(kept) => r == Ok(Fars(Chosen(select, kept), dir))
    {
      if dir == ANY {
        return Err(NoKey);
      }
      var es := if dir == IN then objs[h].inEdges else objs[h].outEdges;
      var kept: seq<Loaded> := [];
      for i := 0 to |es|
        invariant Collect(objs, reg, db.docs, es[..i], dir, filter) == Ok(kept)
      {
        assert es[..i + 1][..i] == es[..i];
        var l := Load(objs, reg, db.docs, es[i]);
        if l.Err? {
          CollectStops(objs, reg, db.docs, es, i + 1, dir, filter, l.error);
          return Err(l.error);
        }
        if Keep(l.value, dir, filter) {
          kept := kept + [l.value];
        }
      }
      assert es[..|es|] == es;
      return Ok(Fars(Chosen(select, kept), dir));
    }

    /** The two `update(True)` calls at the end of `attach`, source first. */
    method UpdateEnds(s: Handle, t: Handle)
      requires s in objs && objs[s].NodeArch? && t in objs && objs[t].NodeArch? && DocsOk(docs, nextId)
      modifies this`docs
      ensures DocsOk(docs, nextId)
      ensures docs.Keys == old(docs.Keys)
      ensures forall k | k in docs && k != s && k != t :: docs[k] == old(docs[k])
      ensures forall k | k in docs :: docs[k].anchor == old(docs[k].anchor)
      ensures Pending(objs, docs, s) && Pending(objs, docs, t)
    {
      Update(s, true);
      Update(t, true);
    }
  }

  /** An edge as `edges_to_nodes` sees it once loaded: its class and its two ends. */
  datatype Loaded = Loaded(cls: ArchClass, source: Option<Ref>, target: Option<Ref>)

  /** The end `edges_to_nodes` follows: the target for OUT, the source otherwise. */
  function FarEnd(l: Loaded, dir: EdgeDir): Option<Ref> {
    if dir == OUT then l.target else l.source
  }

  /** A stored end reference as the edge document loader rebuilds it: a lazy reference; a bad type value raises. */
  function EndRef(j: Option<RefJson>): (r: Result<Option<Ref>, Failure>)
    ensures j.None? ==> r == Ok(None)
    ensures j.Some? ==> (r.Ok? <==> FromJson(j.value).Ok?)
    ensures r.Ok? && j.Some? ==> r.value == Some(Lazy(FromJson(j.value).value))
  {
    match j
    case None => Ok(None)
    case Some(x) =>
      match FromJson(x)
      case Err(f) => Err(f)
      case Ok(d) => Ok(Some(Lazy(d)))
  }

  /**
   * `connect()` on a lazy edge reference, then the edge document loader
   * on the record found. An unknown class or a missing record makes
   * `connect` give None, and reading `_jac_` of None raises; the loader
   * raises on a bad type value and calls the class the record names.
   */
  function Connect(reg: Registry, db: Docs, d: DocAnchor): (r: Result<Loaded, Failure>)
    ensures ClassRef(reg, d).None? || d.id !in db ==> r == Err(NoAttribute)
    ensures r.Ok? ==>
              var rec := db[d.id];
              && FromJson(rec.ref).Ok? && ClassRef(reg, FromJson(rec.ref).value) == Some(r.value.cls)
              && EndRef(rec.src) == Ok(r.value.source) && EndRef(rec.tgt) == Ok(r.value.target)
  {
    if ClassRef(reg, d).None? || d.id !in db then Err(NoAttribute)
    else
      var rec := db[d.id];
      match FromJson(rec.ref)
      case Err(f) => Err(f)
      case Ok(a) =>
        match ClassRef(reg, a)
        case None => Err(NotCallable)
        case Some(c) =>
          match EndRef(rec.src)
          case Err(f) => Err(f)
          case Ok(src) =>
            match EndRef(rec.tgt)
            case Err(f) => Err(f)
            case Ok(tgt) => Ok(Loaded(c, src, tgt))
  }

  /** An entry of an edge list as `edges_to_nodes` sees it: a live edge as it is, a lazy one connected. */
  function Load(objs: Objs, reg: Registry, db: Docs, e: Ref): (r: Result<Loaded, Failure>)
    requires e.Live? ==> e.h in objs && objs[e.h].EdgeArch?
    ensures e.Live? ==> r == Ok(Loaded(objs[e.h].cls, objs[e.h].source, objs[e.h].target))
    ensures e.Lazy? ==> r == Connect(reg, db, e.doc)
  {
    match e
    case Live(k) => Ok(Loaded(objs[k].cls, objs[k].source, objs[k].target))
    case Lazy(d) => Connect(reg, db, d)
  }

  /** The keep test: the end followed is set and the edge is an instance of the filter type. */
  predicate Keep(l: Loaded, dir: EdgeDir, filter: set<TypeTag>) {
    FarEnd(l, dir).Some? && Fires(filter, l.cls.types)
  }

  /** The edges of an edge list the loop keeps, in order; the first entry that cannot be loaded raises. */
  function Collect(objs: Objs, reg: Registry, db: Docs, es: seq<Ref>, dir: EdgeDir, filter: set<TypeTag>)
    : Result<seq<Loaded>, Failure>
    requires EdgeEntries(objs, es)
    decreases |es|
  {
    if es == [] then Ok([])
    else
      match Collect(objs, reg, db, es[..|es| - 1], dir, filter)
      case Err(f) => Err(f)
      case Ok(kept) =>
        match Load(objs, reg, db, es[|es| - 1])
        case Err(f) => Err(f)
        case Ok(l) => Ok(if Keep(l, dir, filter) then kept + [l] else kept)
  }

  /** `filter_func(edge_list)`, with the identity when no function is given. */
  function Chosen(select: Option<seq<Loaded> -> seq<Loaded>>, kept: seq<Loaded>): seq<Loaded> {
    match select
    case None => kept
    case Some(f) => f(kept)
  }

  /** Each chosen edge replaced by the end it leads to. */
  function Fars(ls: seq<Loaded>, dir: EdgeDir): (r: seq<Option<Ref>>)
    ensures |r| == |ls| && forall i | 0 <= i < |ls| :: r[i] == FarEnd(ls[i], dir)
  {
    if ls == [] then [] else Fars(ls[..|ls| - 1], dir) + [FarEnd(ls[|ls| - 1], dir)]
  }

  /** Once an entry fails to load, the whole walk fails with its error. */
  lemma {:induction false} CollectStops(objs: Objs, reg: Registry, db: Docs, es: seq<Ref>, n: nat, dir: EdgeDir,
                                         filter: set<TypeTag>, f: Failure)
    requires 0 < n <= |es| && EdgeEntries(objs, es)
    requires Collect(objs, reg, db, es[..n], dir, filter) == Err(f)
    ensures Collect(objs, reg, db, es, dir, filter) == Err(f)
    decreases |es| - n
  {
    if n < |es| {
      assert es[..n + 1][..n] == es[..n];
      CollectStops(objs, reg, db, es, n + 1, dir, filter, f);
    } else {
      assert es[..n] == es;
    }
  }

  /** The walk fails exactly when some entry of the list cannot be loaded. */
  lemma {:induction false} CollectFails(objs: Objs, reg: Registry, db: Docs, es: seq<Ref>, dir: EdgeDir, filter: set<TypeTag>)
    requires EdgeEntries(objs, es)
    ensures Collect(objs, reg, db, es, dir, filter).Err? <==> exists i | 0 <= i < |es| :: Load(objs, reg, db, es[i]).Err?
    decreases |es|
  {
    if es != [] {
      var init := es[..|es| - 1];
      CollectFails(objs, reg, db, init, dir, filter);
      if exists i | 0 <= i < |init| :: Load(objs, reg, db, init[i]).Err? {
        var i :| 0 <= i < |init| && Load(objs, reg, db, init[i]).Err?;
        assert init[i] == es[i];
      }
      if exists i | 0 <= i < |es| :: Load(objs, reg, db, es[i]).Err? {
        var i :| 0 <= i < |es| && Load(objs, reg, db, es[i]).Err?;
        if i < |init| {
          assert init[i] == es[i];
        }
      }
    }
  }

  /** The kept edges are at most the list's entries, each passing the keep test, in list order. */
  lemma {:induction false} CollectKeeps(objs: Objs, reg: Registry, db: Docs, es: seq<Ref>, dir: EdgeDir, filter: set<TypeTag>)
    requires EdgeEntries(objs, es)
    ensures var c := Collect(objs, reg, db, es, dir, filter);
            c.Ok? ==> |c.value| <= |es| && forall i | 0 <= i < |c.value| :: Keep(c.value[i], dir, filter)
    decreases |es|
  {
    if es != [] {
      CollectKeeps(objs, reg, db, es[..|es| - 1], dir, filter);
    }
  }

  /** Without a `select` function, every node returned is set: the keep test checked the end followed. */
  lemma NoSelectAllSet(objs: Objs, reg: Registry, db: Docs, es: seq<Ref>, dir: EdgeDir, filter: set<TypeTag>)
    requires EdgeEntries(objs, es) && Collect(objs, reg, db, es, dir, filter).Ok?
    ensures var r := Fars(Chosen(None, Collect(objs, reg, db, es, dir, filter).value), dir);
            |r| <= |es| && forall i | 0 <= i < |r| :: r[i].Some?
  {
    CollectKeeps(objs, reg, db, es, dir, filter);
  }

  /** A list of live edges only is walked without failure. */
  lemma AllLiveLoads(objs: Objs, reg: Registry, db: Docs, es: seq<Ref>, dir: EdgeDir, filter: set<TypeTag>)
    requires EdgeEntries(objs, es) && forall i | 0 <= i < |es| :: es[i].Live?
    ensures Collect(objs, reg, db, es, dir, filter).Ok?
  {
    CollectFails(objs, reg, db, es, dir, filter);
  }

  /** An edge's (source, target) for `attach(src, trg)`: swapped when its direction is IN. */
  function Oriented(dir: Option<EdgeDir>, src: Handle, trg: Handle): (Handle, Handle) {
    if dir == Some(IN) then (trg, src) else (src, trg)
  }

  /**
   * The architypes after `attach` wires edge `e` from `s` to `t`: the
   * edge's ends are set, and it is appended to `s`'s OUT list and to `t`'s
   * IN list.
   */
  function Wire(o: Objs, e: Handle, s: Handle, t: Handle): Objs
    requires e in o && o[e].EdgeArch? && s in o && o[s].NodeArch? && t in o && o[t].NodeArch?
  {
    var o1 := o[e := o[e].(source := Some(Live(s)), target := Some(Live(t)))];
    var o2 := o1[s := o1[s].(outEdges := o1[s].outEdges + [Live(e)])];
    o2[t := o2[t].(inEdges := o2[t].inEdges + [Live(e)])]
  }

  /**
   * What wiring changes: the edge's ends; the edge once at the end of the
   * source's OUT list and once at the end of the target's IN list; no other
   * list and no other architype.
   */
  lemma WireEffect(o: Objs, e: Handle, s: Handle, t: Handle)
    requires e in o && o[e].EdgeArch? && s in o && o[s].NodeArch? && t in o && o[t].NodeArch?
    ensures var r := Wire(o, e, s, t);
            && r.Keys == o.Keys
            && r[e] == o[e].(source := Some(Live(s)), target := Some(Live(t)))
            && r[s].outEdges == o[s].outEdges + [Live(e)]
            && r[t].inEdges == o[t].inEdges + [Live(e)]
            && (s != t ==> r[s].inEdges == o[s].inEdges && r[t].outEdges == o[t].outEdges)
            && r[s] == o[s].(outEdges := r[s].outEdges, inEdges := r[s].inEdges)
            && r[t] == o[t].(outEdges := r[t].outEdges, inEdges := r[t].inEdges)
            && (forall k | k in o && k != e && k != s && k != t :: r[k] == o[k])
  {
  }

  /** Same handles, each still a node or still an edge. */
  ghost predicate SameKinds(o0: Objs, o1: Objs) {
    o0.Keys == o1.Keys && forall k | k in o0 :: o1[k].NodeArch? == o0[k].NodeArch?
  }

  lemma EntriesKept(o0: Objs, o1: Objs, es: seq<Ref>)
    requires SameKinds(o0, o1) && EdgeEntries(o0, es)
    ensures EdgeEntries(o1, es)
  {
  }

  lemma EntriesSnoc(o: Objs, es: seq<Ref>, e: Handle)
    requires EdgeEntries(o, es) && e in o && o[e].EdgeArch?
    ensures EdgeEntries(o, es + [Live(e)])
  {
    var t := es + [Live(e)];
    forall i | 0 <= i < |t| && t[i].Live?
      ensures t[i].h in o && o[t[i].h].EdgeArch?
    {
      if i < |es| {
        assert t[i] == es[i];
      }
    }
  }

  /** Wiring an edge between two nodes keeps edge lists holding edges and edge ends being nodes. */
  lemma WireWired(o: Objs, e: Handle, s: Handle, t: Handle)
    requires e in o && o[e].EdgeArch? && s in o && o[s].NodeArch? && t in o && o[t].NodeArch?
    requires Wired(o)
    ensures Wired(Wire(o, e, s, t))
  {
    var r := Wire(o, e, s, t);
    WireEffect(o, e, s, t);
    assert SameKinds(o, r);
    forall k | k in r && r[k].NodeArch?
      ensures EdgeEntries(r, r[k].inEdges) && EdgeEntries(r, r[k].outEdges)
    {
      EntriesKept(o, r, o[k].inEdges);
      EntriesKept(o, r, o[k].outEdges);
      if k == s {
        EntriesSnoc(r, o[k].outEdges, e);
      }
      if k == t {
        EntriesSnoc(r, o[k].inEdges, e);
      }
      if k == s && k == t {
        EntriesSnoc(r, o[k].outEdges, e);
        EntriesSnoc(r, o[k].inEdges, e);
      }
    }
  }

}
=== FILE: persistence_props.dfy ===
/**
 * Consequences of the persistence model over several saves: what a retry
 * after a failed save without a session writes.
 */
module PersistenceLemmas {
  import opened Construct
  import opened Persistence

  /**
   * `save()` as written, retried after a failure: the first save of a new
   * node assigns its document and then fails, so the transaction is
   * aborted and nothing is stored; the retry finds the document in place
   * with nothing pending, writes nothing and succeeds, and the node's
   * record is still missing from the store.
   */
  method RetryAfterFailedSave() returns (first: Result<DocAnchor, Persistence.Failure>, second: Result<DocAnchor, Persistence.Failure>, stored: bool)
    ensures first.Err? && second.Ok? && !stored
  {
    var g := new Graph(map[0 := NodeArch(false, ArchClass("N", {"N"}, [], []), map[], [], [])], 0);
    var db := new Store(map[]);
    ghost var ws: seq<Write>;
    first, ws := g.Save(0, db, {0});
    second, ws := g.Save(0, db, {});
    stored := g.docs[0].anchor.id in db.docs;
  }

  /** The same retry with the atomic save: the failed save leaves the node unsaved, so the retry stores it. */
  method RetryAfterFailedSaveAtomic() returns (first: Result<DocAnchor, Persistence.Failure>, second: Result<DocAnchor, Persistence.Failure>, stored: bool)
    ensures first.Err? && second.Ok? && stored
  {
    var g := new Graph(map[0 := NodeArch(false, ArchClass("N", {"N"}, [], []), map[], [], [])], 0);
    var db := new Store(map[]);
    ghost var ws: seq<Write>;
    first, ws := g.SaveAtomic(0, db, {0});
    second, ws := g.SaveAtomic(0, db, {});
    stored := g.docs[0].anchor.id in db.docs;
  }

  /**
   * The same retry on any graph: whenever the first save of a node with
   * something pending fails at its first write, the retry, whatever then
   * fails, succeeds without writing, and the store is left exactly as it
   * was before both saves.
   */
  method RetryAfterFailedSaveOn(g: Graph, db: Store, h: Handle, failing: set<nat>)
      returns (first: Result<DocAnchor, Persistence.Failure>, second: Result<DocAnchor, Persistence.Failure>)
    requires h in g.objs && g.objs[h].NodeArch? && Wired(g.objs) && DocsOk(g.docs, g.nextId)
    requires !Quiet(g.objs, g.docs, h)
    modifies g`docs, g`nextId, db`docs
    ensures first.Err? && second.Ok? && db.docs == old(db.docs)
  {
    ghost var ws: seq<Write>;
    first, ws := g.Save(h, db, {0});
    second, ws := g.Save(h, db, failing);
  }

  /**
   * The atomic retry on any graph: a new node without edges whose first
   * save fails is stored by a retry in which the first write succeeds.
   */
  method RetryAfterFailedSaveAtomicOn(g: Graph, db: Store, h: Handle, failing: set<nat>)
      returns (first: Result<DocAnchor, Persistence.Failure>, second: Result<DocAnchor, Persistence.Failure>)
    requires h in g.objs && g.objs[h].NodeArch? && g.objs[h].inEdges == [] && g.objs[h].outEdges == []
    requires Wired(g.objs) && DocsOk(g.docs, g.nextId) && h !in g.docs && 0 !in failing
    modifies g`docs, g`nextId, db`docs
    ensures first.Err? && second.Ok? && second.value.id in db.docs
  {
    ghost var ws: seq<Write>;
    first, ws := g.SaveAtomic(h, db, {0});
    second, ws := g.SaveAtomic(h, db, failing);
  }
}
